=== FILE: README.md ===
# s3-navigator core in Dafny

This project models the core of s3-navigator, a terminal browser for Amazon S3.
The core has two parts:

- `S3Client` turns paginated `list_objects_v2` responses into display rows,
  sums directory sizes, and deletes objects. It deletes single keys one by one
  and deletes directories by prefix, in batches of at most 1000 keys.
- `S3Navigator` holds the browsing state. That state is the path stack
  `[bucket, dir, ...]`, the selected keys, the rows on display, and the sort
  settings. Each UI callback is one transition: path change, item selection,
  delete, refresh and sort toggle.

The remote service is an oracle. Every answer it gives is an input to the
model:

- the bucket list;
- the delimited listing pages;
- the recursive listing pages of any prefix;
- the current time.

Delete requests are an output trace of `DeleteOne(bucket, key)` and
`DeleteMany(bucket, keys)` calls. Which requests raise is given by a predicate.

Files:

- `wrappers.dfy`: `Option`.
- `items.dfy`: the row record (`Item`) and its kinds.
- `strings.dfy`: the `str` operations used on keys: `join`, `split`,
  `strip`/`rstrip`/`lstrip`, `endswith`, `lower`, and the "last piece after `/`"
  that names a directory. Each comes with the laws relating them.
- `sorting.dfy`: `list.sort(key=…, reverse=…)` as a stable insertion sort. It is
  specified as a permutation that is ordered and keeps every class of equal keys
  in input order.
- `s3_client.dfy`: `list_buckets`, `list_objects`, `_calculate_directory_size`,
  `delete_object` and `_delete_directory`.
- `navigator.dfy`: the navigator state machine, with every callback and the
  invariant it keeps.

## Model

| member | source | states |
|---|---|---|
| Strings.Split | s3_navigator/navigator.py:194 | splitting a key yields at least one piece |
| Strings.JoinSplit | s3_navigator/navigator.py:194-196 | joining the pieces of a split gives back the original string, so the part after the bucket is exactly the rest of the key |
| Strings.SplitJoin | s3_navigator/navigator.py:106 | splitting the join of slash-free pieces gives back the pieces |
| Strings.RStrip | s3_navigator/s3_client.py:74 | `rstrip("/")` returns a prefix of its input that does not end in '/', and everything it removed is '/' |
| Strings.LStrip | s3_navigator/navigator.py:106 | `lstrip("/")` returns a suffix that does not start with '/', and everything it removed is '/' |
| Strings.Strip | s3_navigator/navigator.py:106 | `strip("/")` has no separator at either end and leaves a string without such separators unchanged |
| Strings.StripIsMiddle | s3_navigator/navigator.py:106 | `strip("/")` removes separators at the two ends and nothing else: the result is a contiguous middle of the input, and every character around it is '/' |
| Strings.IndexOf | s3_navigator/navigator.py:194 | the position found holds the separator, and no separator comes before it |
| Strings.Lower | s3_navigator/navigator.py:237 | lower-casing keeps the length |
| Strings.LowerCases | s3_navigator/navigator.py:237 | lower-casing leaves no capital letter: each capital becomes the small letter at the same place in the alphabet, and every other character is kept |
| Strings.LastSegmentIsLastPiece | s3_navigator/s3_client.py:74 | the last segment of a string equals the last piece of `split("/")` |
| Strings.LastSegmentIsTail | s3_navigator/s3_client.py:74 | the last segment is a slash-free suffix of the string |
| Strings.LastSegmentFollowsSlash | s3_navigator/s3_client.py:74 | the last segment is the whole string or starts just after a '/' |
| Strings.LastSegmentOfChild | s3_navigator/s3_client.py:74 | appending a slash-free name to an empty string or to a string ending in '/' makes that name the last segment |
| Strings.DirNameEmptyIff | s3_navigator/s3_client.py:74-75 | a common prefix gives an empty directory name (and is skipped) exactly when it consists of separators only |
| Strings.DirNameOfChild | s3_navigator/s3_client.py:74 | the common prefix `p + d + "/"` is named `d` |
| Strings.DirNameSlashFree | s3_navigator/s3_client.py:74 | a directory name never contains '/' |
| Strings.TextLessIrreflexive | s3_navigator/navigator.py:237 | no name sorts before itself |
| Strings.TextLessTotal | s3_navigator/navigator.py:237 | string comparison orders any two distinct names one way or the other |
| Strings.TextLessTransitive | s3_navigator/navigator.py:237 | string comparison is transitive |
| Sorting.Sort | s3_navigator/navigator.py:232-244 | the result is a permutation of the rows, no row is followed by one that should precede it, and rows with equal keys keep their input order (stability) |
| Sorting.Key | s3_navigator/navigator.py:235-242 | only the name column gives text keys; the size and date columns give the row's size and modification time |
| Sorting.NameKeyIgnoresCase | s3_navigator/navigator.py:237 | names that differ only in letter case get the same name key, and that key holds no capital letter |
| Sorting.SortOfSorted | s3_navigator/navigator.py:244 | sorting rows that are already in order leaves them unchanged |
| Sorting.SortIdempotent | s3_navigator/navigator.py:244 | sorting twice is sorting once |
| Sorting.KeyLessTotal | s3_navigator/navigator.py:235-242 | any two distinct sort keys are ordered |
| Sorting.PrecedesAsymmetric | s3_navigator/navigator.py:244 | under either direction, two rows never each precede the other |
| Sorting.InsertWithKey | s3_navigator/navigator.py:244 | inserting a row places it after every row with an equal key |
| Sorting.SortByNameExample | tests/test_navigator.py:83-98 | rows Z, A, M sort by lower-cased name to A, M, Z |
| Sorting.SortBySizeExample | tests/test_navigator.py:100-105 | sizes 500, 1000, 2000 come out ascending |
| Sorting.SortByDateExample | tests/test_navigator.py:107-112 | dates come out oldest first |
| Sorting.SortByDateReversedExample | tests/test_navigator.py:114-119 | with reverse set, dates come out newest first |
| S3Client.ListBuckets | s3_navigator/s3_client.py:23-42 | one bucket row per response entry, in order, of size 0, dated by the creation date or by now when there is none |
| S3Client.ListBucketsScenarios | tests/test_s3_client.py:49-98 | an empty response lists nothing; two buckets list as two bucket rows with their names and dates |
| S3Client.Keys | s3_navigator/s3_client.py:162 | the key list has one key per object, in order |
| S3Client.CalculateDirectorySize | s3_navigator/s3_client.py:113-131 | the loop over pages and contents computes the total size of every object in every page, and that total is non-negative when the sizes are |
| S3Client.DirectorySize | s3_navigator/s3_client.py:113-131 | a listing with no objects has size 0 |
| S3Client.DirectorySizeAdditive | s3_navigator/s3_client.py:127-129 | the size of two runs of pages is the sum of their sizes |
| S3Client.Dirs | s3_navigator/s3_client.py:73-86 | the directory rows of a listing are exactly its rows of kind directory |
| S3Client.FileEntries | s3_navigator/s3_client.py:89-109 | each file row comes from an object that is not the marker, does not end in '/' and has no '/' after the prefix; every such object gives a row; file names are slash-free |
| S3Client.ListedIsDirectChild | s3_navigator/s3_client.py:92-100 | an object under the prefix gives a file row exactly when what follows the prefix is a non-empty name without '/' |
| S3Client.FileEntriesSingle | s3_navigator/s3_client.py:89-109 | a single object gives exactly one file row, named by what follows the prefix, when it is listable, and none otherwise |
| S3Client.FileEntriesAppend | s3_navigator/s3_client.py:89 | the file rows of consecutive objects are the rows of the first objects followed by those of the rest, so file rows follow the objects' order |
| S3Client.DirEntries | s3_navigator/s3_client.py:73-86 | the directory rows of one page are named by their common prefixes, sized recursively, and are non-empty, distinct and not seen before; every non-empty name is recorded as seen |
| S3Client.Entries | s3_navigator/s3_client.py:71-109 | across all pages, rows are directories or files; the file rows are exactly the listable objects; directory names are distinct across pages and cover every non-empty common-prefix name |
| S3Client.EntriesAppend | s3_navigator/s3_client.py:71-109 | the rows of consecutive pages are the rows of the first pages followed by the rows of the later ones, which skip every directory name already shown |
| S3Client.ListObjects | s3_navigator/s3_client.py:44-111 | with a non-empty prefix the first row is the ".." directory; the rows after it are the page entries in page order |
| S3Client.EntriesOfOnePage | s3_navigator/s3_client.py:71-109 | a single page lists its directories first, then its files |
| S3Client.DirEntriesSingle | s3_navigator/s3_client.py:73-86 | one common prefix gives its directory row exactly when its name is non-empty and not yet seen, and then marks that name seen; otherwise it gives nothing and changes nothing |
| S3Client.DirEntriesAppend | s3_navigator/s3_client.py:73-86 | the directory rows of consecutive common prefixes are the rows of the first ones followed by those of the rest, which skip every name already seen; rows follow the order of the common prefixes |
| S3Client.DirEntriesAllNew | s3_navigator/s3_client.py:73-86 | when every common prefix gives a fresh non-empty name, there is one directory row per prefix, in order |
| S3Client.ListObjectsRootExample | tests/test_s3_client.py:100-153 | the root listing of two folders and two files shows folder1, folder2, file1.txt (1024 bytes) and file2.txt (2048 bytes), in that order |
| S3Client.BatchCalls | s3_navigator/s3_client.py:166-173 | one `delete_objects` request per batch, in order |
| S3Client.ChunksCorrect | s3_navigator/s3_client.py:158-173 | the batches concatenate back to the keys; every batch holds between 1 and 1000 keys and all but the last are full; the number of batches is the key count divided by 1000, rounded up |
| S3Client.ChunksUnique | s3_navigator/s3_client.py:158-173 | any batching with those properties is exactly this one |
| S3Client.DeletedKeysOfBatches | s3_navigator/s3_client.py:166-173 | the keys the batch requests delete are the batches concatenated |
| S3Client.DeleteDirectoryDeletesAll | s3_navigator/s3_client.py:147-173 | deleting a directory sends only batched requests to its bucket, deletes exactly the listed keys in order, in full batches of 1000 except the last |
| S3Client.DeleteDirectory | s3_navigator/s3_client.py:147-173 | only batched requests to the directory's bucket are sent, and together they delete exactly the listed keys, in listing order |
| S3Client.DeleteDirectoryLoop | s3_navigator/s3_client.py:154-173 | the incremental loop (append, flush at 1000, flush the rest) sends exactly the requests of the batch-by-1000 definition |
| S3Client.DeleteDirectory2500 | s3_navigator/s3_client.py:164-173 | 2500 keys go out as three requests of 1000, 1000 and 500 keys |
| S3Client.DeleteObject | s3_navigator/s3_client.py:133-145 | a key not ending in '/' gets exactly one single-object delete; a key ending in '/' gets batched deletes of every key listed under it |
| Navigator.Init | s3_navigator/navigator.py:30-34 | the start state is at the bucket list with nothing selected or shown, sorted by name ascending, and satisfies the invariant |
| Navigator.BucketListing | s3_navigator/navigator.py:120 | every row of the bucket listing is a bucket |
| Navigator.ObjectListing | s3_navigator/navigator.py:145 | every row of an object listing is a directory or a file |
| Navigator.Install | s3_navigator/navigator.py:122-128 | an error listing is shown as it is; any other listing is shown as a stable sort of itself; the result is in order either way |
| Navigator.ListBuckets | s3_navigator/navigator.py:117-132 | the path is reset to the root, the selection and sort settings are kept, and the rows are the bucket listing stably sorted: a permutation of it, in order, with rows of equal keys in listing order |
| Navigator.PrefixOf | s3_navigator/navigator.py:140-143 | the prefix is empty exactly at the bucket's root, and ends in '/' below it |
| Navigator.ListObjects | s3_navigator/navigator.py:134-155 | the path, selection and sort settings are kept; the rows are the listing of the path's bucket under its prefix, or the bucket list at the root, stably sorted: a permutation of it, in order, with rows of equal keys in listing order |
| Navigator.Refresh | s3_navigator/navigator.py:206-211 | refreshing is the same as listing the current location again |
| Navigator.NavigateInto | s3_navigator/navigator.py:157-171 | an out-of-range index or a file row changes nothing; a bucket or directory row is pushed onto the path, and the rows become the stably sorted listing of that location |
| Navigator.NavigateUp | s3_navigator/navigator.py:173-182 | at the root nothing changes; otherwise the state is exactly the listing of the location with the last path element popped, and that listing is sorted |
| Navigator.IntoThenUp | s3_navigator/navigator.py:157-182 | entering a bucket or directory and then going up lands where a refresh would |
| Navigator.PrefixExtend | s3_navigator/navigator.py:140-143 | entering directory `d` extends the prefix by `d/` |
| Navigator.DescendListsCommonPrefix | s3_navigator/navigator.py:141-145 | the directory row made from common prefix `p + d + "/"` is named `d`, and entering it lists exactly that common prefix |
| Navigator.FirstIndex | s3_navigator/navigator.py:87-94 | the index found is the first row with that name; none is found exactly when no row has it |
| Navigator.FirstIndexIsFirstNamed | s3_navigator/navigator.py:87-94 | an index is the first row with the name exactly when it is the index found |
| Navigator.HandlePathChange | s3_navigator/navigator.py:76-96 | as written: "up" goes up; "in" without a non-empty name does nothing; "in" with a name hands the first row of that name to `_navigate_into`, and does nothing when no row has it |
| Navigator.HandlePathChangeFixed | s3_navigator/navigator.py:83-96 | corrected: the same dispatch, but the first row of the name is entered with `Enter`, so the ".." row leads up |
| Navigator.Qualify | s3_navigator/navigator.py:106 | the recorded key has no separator at either end |
| Navigator.QualifyRoundTrip | s3_navigator/navigator.py:106 | for slash-free names, splitting the recorded key gives back the path followed by the row name |
| Navigator.QualifyIsJoin | s3_navigator/navigator.py:106 | for slash-free names, the recorded key is the path and row name joined by '/' |
| Navigator.RemoveFirst | s3_navigator/navigator.py:109 | `list.remove` deletes the first occurrence of the key and keeps every other element in its order; exactly one copy of the key is gone |
| Navigator.Position | s3_navigator/navigator.py:109 | the position found holds the key, and no earlier element is the key |
| Navigator.Toggle | s3_navigator/navigator.py:108-111 | a selected key loses its first occurrence, the other keys keeping their order; an unselected key is appended at the end |
| Navigator.ToggleMembership | s3_navigator/navigator.py:108-111 | toggling keeps the selection free of duplicates, flips the key's membership and leaves every other key as it was |
| Navigator.ToggleTwice | s3_navigator/navigator.py:108-111 | toggling a key twice restores the set of selected keys, and restores the exact list when the key was not selected |
| Navigator.ToggleSelection | s3_navigator/navigator.py:98-115 | as written: an out-of-range index changes nothing; otherwise only the selection changes, toggling the key of line 106 (path and name joined by '/', then stripped of '/') |
| Navigator.ToggleSelectionFixed | s3_navigator/navigator.py:98-111 | corrected: the same toggle on the key that keeps a directory row's trailing '/' |
| Navigator.SplitKey | s3_navigator/navigator.py:194-196 | a key with no '/' is all bucket with an empty rest; otherwise it is cut at its first '/' |
| Navigator.SplitKeyAt | s3_navigator/navigator.py:194-196 | a slash-free bucket joined to any rest splits back into that bucket and rest |
| Navigator.Send | s3_navigator/navigator.py:198-201 | the requests sent are the calls up to and including the first that raises, or all of them; the attempt succeeds exactly when none raises |
| Navigator.AttemptKey | s3_navigator/navigator.py:193-201 | one key's attempt sends the requests `delete_object` would make for it, in order, up to and including the first that raises; it succeeds exactly when none raises, and then every request was sent |
| Navigator.AttemptAllIsolated | s3_navigator/navigator.py:193-201 | each key's attempt is what deleting that key alone gives, whatever happened to the keys before it |
| Navigator.AttemptAll | s3_navigator/navigator.py:193-201 | one attempt per selected key, in the selection's order |
| Navigator.FailedKeys | s3_navigator/navigator.py:200-201 | the keys reported as failed are exactly the keys whose attempts failed |
| Navigator.FailedKeysAppend | s3_navigator/navigator.py:193-201 | failures are reported in attempt order, one report per failed attempt |
| Navigator.DeleteSelected | s3_navigator/navigator.py:184-204 | with nothing selected, or without confirmation, nothing happens; otherwise every selected key is attempted in order, exactly the failed keys are reported, and the state is a refresh of the location with the selection cleared |
| Navigator.AllSucceed | s3_navigator/navigator.py:193-204 | when nothing raises, nothing is reported and the requests sent are those of `delete_object` for each key in turn |
| Navigator.SelectionKey | s3_navigator/navigator.py:106 | the corrected key ends in '/' exactly for directory rows |
| Navigator.SelectionKeyTargets | s3_navigator/navigator.py:194-196 | the corrected key (line 106 plus a trailing '/' for directories) splits into the path's bucket and either the directory's listing prefix or the file's key |
| Navigator.SelectedDirectoryDeletesContents | s3_navigator/s3_client.py:133-173 | with the corrected key, deleting a directory row sends batched deletes, to the path's bucket, of every object listed under the directory's prefix |
| Navigator.DirectoryDeleteIsSingle | s3_navigator/navigator.py:193-199 | as written, with keys recorded as on line 106, deleting any selected row, directory rows included, sends exactly one single-object delete |
| Navigator.DirectoryDeleteExample | s3_navigator/navigator.py:193-199 | as written, deleting directory `photos` in bucket `b` sends one single-object delete of key "photos", which removes only an object of exactly that name and nothing under `photos/` |
| Navigator.SortItems | s3_navigator/navigator.py:232-244 | only the rows change; they become a stable sort of themselves under the current settings |
| Navigator.SortItemsIdempotent | s3_navigator/navigator.py:232-244 | sorting rows that are already in order, or sorting twice, changes nothing more |
| Navigator.OptionIndex | s3_navigator/navigator.py:216-217 | each column has its place in the list of sort options name, size, last-modified |
| Navigator.NextSort | s3_navigator/navigator.py:213-225 | a press moves to the next column of the list name, size, last-modified, keeping the direction; from the last column it moves to the first and flips the direction |
| Navigator.ToggleSort | s3_navigator/navigator.py:213-230 | the settings advance by one step, the path and selection are kept, and the rows are a stable re-sort of the previous rows under the new settings |
| Navigator.SortCycle | s3_navigator/navigator.py:213-225 | one press moves the rows to the next column of the list, cyclically; three presses return to the same column with the direction flipped; six presses restore the original settings |
| Navigator.SortItemsExample | tests/test_navigator.py:83-119 | the navigator sorts the three test rows by name, by size, by date and by date reversed as the tests expect |
| Navigator.StepPreservesValid | s3_navigator/navigator.py:56-60 | every callback as written keeps the selection free of duplicates and the rows in order, unless an error listing is shown |
| Navigator.StepFixedPreservesValid | s3_navigator/navigator.py:56-60 | the corrected callbacks keep the same invariant |
| Navigator.Step | s3_navigator/navigator.py:56-60 | as written, each callback changes only what it owns: only a path change moves the path, only a selection or a deletion touches the selection (a deletion empties it or changes nothing), and only a sort press changes the sort settings |
| Navigator.StepFixed | s3_navigator/navigator.py:56-60 | the corrected callbacks change only what they own, in the same sense |
| Navigator.Run | s3_navigator/navigator.py:56-60 | an empty sequence of callbacks leaves the state as it is, and a single callback is one step, as written or corrected |
| Navigator.RunConcat | s3_navigator/navigator.py:56-60 | running two sequences of callbacks is running the second from the state the first ends in |
| Navigator.RunPreservesValid | s3_navigator/navigator.py:56-60 | any sequence of callbacks, as written or corrected, keeps a valid state valid |
| Navigator.ListingHasParentRow | s3_navigator/s3_client.py:57-66 | below a bucket's root, the listing always contains the ".." row |
| Navigator.ParentRowDescends | s3_navigator/ui/display.py:115-123 | as written (with `_navigate_into` at navigator.py lines 166-170), entering the ".." row pushes ".." onto the path, so the next listing is under the prefix `…/../` |
| Navigator.Enter | s3_navigator/ui/display.py:115-123 | the corrected entry: the ".." row pops the path; any other row is entered as before |
| Navigator.ParentRowGoesUp | s3_navigator/navigator.py:173-182 | with the correction, entering the ".." row is the same as going up |

## Left out

- `run` and the Textual UI (`ui/display.py`, `cli.py`) are left out: rendering and key handling are I/O. The UI's choice of callback is the `Event` given to `Navigator.Step`. The confirmation dialog's answer is the `confirmed` parameter.
- boto3, credentials, sessions and the network are left out. The service's answers are parameters (`Service`, `Lister`, pages), and the requests sent are an output trace.
- Exceptions raised by listing calls are not modelled. Only exceptions from `delete_object` are, through the `fails` predicate.
- `datetime.now()` is the `now` parameter, and timestamps are integers.
- Sorting.Key: date keys are integers, so sorting by date always succeeds. In Python, directory rows and the ".." row carry a naive `datetime.now()` (s3_navigator/s3_client.py:64 and 84), while file rows carry the service's timezone-aware `LastModified` (s3_navigator/s3_client.py:107). Sorting a listing that mixes the two by date raises `TypeError`; the model sorts it instead.
- Navigator.ToggleSort: every row built by one listing carries the same `now`, where Python calls `datetime.now()` again for ".." and for each directory (s3_navigator/s3_client.py:64 and 84), so those stamps increase in listing order. A date sort therefore keeps such rows in listing order in the model, while Python orders them by stamp; in particular, after a full cycle to descending dates on a listing of ".." and directories only, Python shows the last-listed directory first and ".." last.
- Navigator.ToggleSort: for the same reason as the `Sorting.Key` line, a press that moves to the date column on a listing with both directory and file rows sorts in the model, where Python raises `TypeError`.
- Each transition sees one snapshot of the service. Two listings inside one callback see the same answers.
- `Item` has no `Info` kind, and the client never produces error rows. `Kind.Error` exists only so that the navigator's "error listing is not sorted" branch is modelled.
- Sizes are eager, as in the code: each directory row is sized when it is listed, and bucket rows have size 0. No "-1, not yet computed" sentinel is modelled.
- The sort-toggle cycle has three steps (name, size, date, then name with the direction flipped), as in the code. There is no fourth state.
- The sort key's fallbacks for missing fields (`item.get("size", 0)`, `item.get("last_modified", "")`) are not modelled, because every row carries all fields. The fallback for an unknown column is not modelled either, because `Field` has only three values.
- Strings.Lower: lower-cases ASCII letters only. Python's `str.lower` is Unicode-aware.
- The error message texts passed to `show_error` are not modelled. Only the failed keys are kept, in order, one per report.
- `display.update_view` calls are not modelled. They only redraw.

## Findings

| source | as written | input that shows it | evidently intended | confidence | as-written member | corrected member |
|---|---|---|---|---|---|---|
| s3_navigator/navigator.py:106, s3_navigator/navigator.py:194-199 | The selected key of a directory row is stripped of '/', so `delete_object` receives a key that never ends in '/'. The directory-deletion branch is unreachable. One single-object delete of the directory's name is sent instead: it removes an object of exactly that name if one exists, and leaves every object under the directory's prefix. | path `["b"]`, directory row `photos`: one `delete_object(b, "photos")`; the objects under `photos/` stay | a directory row's key keeps a trailing '/', so every object under the directory's prefix is deleted | not executed | Navigator.DirectoryDeleteIsSingle, Navigator.DirectoryDeleteExample, Navigator.ToggleSelection | Navigator.SelectionKey, Navigator.SelectionKeyTargets, Navigator.SelectedDirectoryDeletesContents, Navigator.ToggleSelectionFixed, Navigator.StepFixed |
| s3_navigator/ui/display.py:115-123, s3_navigator/navigator.py:157-170 | The ".." row is a `DIR` row, so entering it sends `("in", "..")` and the navigator pushes ".." onto the path | path `["b", "d"]`, entering ".." gives path `["b", "d", ".."]` and lists prefix `d/../` | entering ".." goes up one level | not executed | Navigator.ParentRowDescends, Navigator.HandlePathChange | Navigator.Enter, Navigator.ParentRowGoesUp, Navigator.HandlePathChangeFixed, Navigator.StepFixed |

`Navigator.Step` wires the callbacks as written: `ToggleSelection` records the key of line 106, and `HandlePathChange` enters rows with `NavigateInto`. `Navigator.StepFixed` applies both corrections, through `ToggleSelectionFixed` and `HandlePathChangeFixed`. `Navigator.Run` takes a flag that chooses between the two, and the invariant is proved for both.

=== FILE: items.dfy ===
/** The records the navigator displays: one row of a bucket or prefix listing. */
module Items {

  /** The `type` discriminator of a listing row. */
  datatype Kind = Bucket | Dir | File | Error

  /** One displayed row. Sizes are byte counts; timestamps are abstract instants. */
  datatype Item = Item(name: string, kind: Kind, size: int, lastModified: int)

  /** Name of the synthetic parent-directory row. */
  const ParentName: string := ".."

  /** Bucket and directory rows can be entered; files and error rows cannot. */
  predicate IsContainer(it: Item) {
    it.kind == Bucket || it.kind == Dir
  }
}

=== FILE: navigator.dfy ===
/** The navigator (`S3Navigator`): a state record of path stack, selected keys,
    displayed rows and sort settings, with one transition per UI callback. The
    storage service is an oracle (`Service`) whose answers are parameters, the
    user's confirmation is a parameter, and the delete requests sent are an output. */
module Navigator {
  import opened Wrappers
  import opened Strings
  import opened Items
  import opened Sorting
  import S3Client

  /** What the storage service answers during one transition: the bucket list, the
      delimited listing of (bucket, prefix), the recursive listing used for sizes
      and prefix deletion, and the clock. */
  datatype Service = Service(
    buckets: seq<S3Client.BucketEntry>,
    delimited: S3Client.Lister,
    recursive: S3Client.Lister,
    now: int)

  /** `current_path` is `[bucket, dir1, dir2, ...]`; `selected_items` holds qualified keys. */
  datatype State = State(
    path: seq<string>,
    selected: seq<string>,
    items: seq<Item>,
    sortBy: Field,
    reverse: bool)

  predicate NoDuplicates(xs: seq<string>) {
    forall i, j :: 0 <= i < j < |xs| ==> xs[i] != xs[j]
  }

  /** A listing the client reported as failed: its first row is an error row. */
  predicate IsErrorListing(items: seq<Item>) {
    |items| > 0 && items[0].kind == Error
  }

  /** The rows on display are in the state's sort order, unless they are an error listing. */
  predicate InOrder(s: State) {
    IsErrorListing(s.items) || Sorted(s.sortBy, s.reverse, s.items)
  }

  /** What every reachable state satisfies. */
  predicate Valid(s: State) {
    NoDuplicates(s.selected) && InOrder(s)
  }

  /** `__init__`: at the bucket list, nothing selected or shown, sorted by name ascending. */
  function Init(): (s: State)
    ensures s.path == [] && s.selected == [] && s.items == []
    ensures s.sortBy == Name && !s.reverse
    ensures Valid(s)
  {
    State([], [], [], Name, false)
  }

  // ===== listing =====

  /** `list_buckets` as answered by the service. */
  function BucketListing(svc: Service): (r: seq<Item>)
    ensures forall i :: 0 <= i < |r| ==> r[i].kind == Bucket
  {
    S3Client.ListBuckets(svc.buckets, svc.now)
  }

  /** `list_objects(bucket, prefix)` as answered by the service. */
  function ObjectListing(svc: Service, bucket: string, prefix: string): (r: seq<Item>)
    ensures forall i :: 0 <= i < |r| ==> r[i].kind == Dir || r[i].kind == File
  {
    var r := S3Client.ListObjects(bucket, prefix, svc.delimited(bucket, prefix), svc.recursive, svc.now);
    var h := if prefix == "" then 0 else 1;
    assert forall i :: h <= i < |r| ==> r[i] in r[h..];
    r
  }

  /** Installs a listing as the displayed rows: an error listing as it came, any
      other listing in the current sort order. Nothing else changes. */
  function Install(s: State, listing: seq<Item>): (r: State)
    ensures r.path == s.path && r.selected == s.selected
    ensures r.sortBy == s.sortBy && r.reverse == s.reverse
    ensures IsErrorListing(listing) ==> r.items == listing
    ensures !IsErrorListing(listing) ==>
      && multiset(r.items) == multiset(listing)
      && Sorted(s.sortBy, s.reverse, r.items)
      && SameKeyClasses(s.sortBy, r.items, listing)
    ensures InOrder(r)
  {
    if IsErrorListing(listing) then s.(items := listing)
    else s.(items := Sort(s.sortBy, s.reverse, listing))
  }

  /** `_list_buckets`: back at the root, showing the sorted bucket list. */
  function ListBuckets(s: State, svc: Service): (r: State)
    ensures r.path == [] && r.selected == s.selected
    ensures r.sortBy == s.sortBy && r.reverse == s.reverse
    ensures multiset(r.items) == multiset(BucketListing(svc))
    ensures Sorted(r.sortBy, r.reverse, r.items)
    ensures SameKeyClasses(r.sortBy, r.items, BucketListing(svc))
  {
    Install(s.(path := []), BucketListing(svc))
  }

  /** The prefix listed for a path inside a bucket: the directories below the
      bucket joined by '/', with a trailing '/' unless there are none. */
  function PrefixOf(path: seq<string>): (p: string)
    requires |path| >= 1
    ensures |path| == 1 <==> p == ""
    ensures |path| > 1 ==> EndsWithSlash(p)
  {
    Join(path[1..]) + (if |path| > 1 then [Slash] else [])
  }

  /** `_list_objects`: the sorted listing of the current directory, or of the
      buckets when the path is empty. The path itself never changes. */
  function ListObjects(s: State, svc: Service): (r: State)
    ensures r.path == s.path && r.selected == s.selected
    ensures r.sortBy == s.sortBy && r.reverse == s.reverse
    ensures s.path == [] ==> multiset(r.items) == multiset(BucketListing(svc))
    ensures s.path != [] ==> multiset(r.items) == multiset(ObjectListing(svc, s.path[0], PrefixOf(s.path)))
    ensures Sorted(r.sortBy, r.reverse, r.items)
    ensures s.path == [] ==> SameKeyClasses(r.sortBy, r.items, BucketListing(svc))
    ensures s.path != [] ==> SameKeyClasses(r.sortBy, r.items, ObjectListing(svc, s.path[0], PrefixOf(s.path)))
  {
    if s.path == [] then ListBuckets(s, svc)
    else
      var listing := ObjectListing(svc, s.path[0], PrefixOf(s.path));
      Install(s, listing)
  }

  /** `_refresh`: lists the current location again; the same as `_list_objects`. */
  function Refresh(s: State, svc: Service): (r: State)
    ensures r == ListObjects(s, svc)
    ensures r.path == s.path && r.selected == s.selected
  {
    if s.path == [] then ListBuckets(s, svc) else ListObjects(s, svc)
  }

  // ===== navigation =====

  /** `_navigate_into`: a bucket or directory row is pushed onto the path and the
      new location listed; a file row or an index out of range changes nothing. */
  function NavigateInto(s: State, i: int, svc: Service): (r: State)
    ensures !(0 <= i < |s.items|) ==> r == s
    ensures 0 <= i < |s.items| && !IsContainer(s.items[i]) ==> r == s
    ensures 0 <= i < |s.items| && IsContainer(s.items[i]) ==>
      var p := s.path + [s.items[i].name];
      && r.path == p
      && r.selected == s.selected && r.sortBy == s.sortBy && r.reverse == s.reverse
      && multiset(r.items) == multiset(ObjectListing(svc, p[0], PrefixOf(p)))
      && Sorted(r.sortBy, r.reverse, r.items)
      && SameKeyClasses(r.sortBy, r.items, ObjectListing(svc, p[0], PrefixOf(p)))
  {
    if i < 0 || i >= |s.items| then s
    else if IsContainer(s.items[i]) then ListObjects(s.(path := s.path + [s.items[i].name]), svc)
    else s
  }

  /** `_navigate_up`: drops the last path segment and lists what is then current;
      nothing happens at the root. */
  function NavigateUp(s: State, svc: Service): (r: State)
    ensures s.path == [] ==> r == s
    ensures s.path != [] ==>
      && r.path == s.path[..|s.path| - 1]
      && r.selected == s.selected && r.sortBy == s.sortBy && r.reverse == s.reverse
      && Sorted(r.sortBy, r.reverse, r.items)
    ensures s.path != [] ==> r == ListObjects(s.(path := s.path[..|s.path| - 1]), svc)
  {
    if s.path == [] then s
    else
      var up := s.(path := s.path[..|s.path| - 1]);
      if up.path == [] then ListBuckets(up, svc) else ListObjects(up, svc)
  }

  /** Descending into a container row and coming back up is a refresh of where one started. */
  lemma IntoThenUp(s: State, i: int, svc: Service)
    requires 0 <= i < |s.items| && IsContainer(s.items[i])
    ensures NavigateUp(NavigateInto(s, i, svc), svc) == Refresh(s, svc)
  {
    var down := NavigateInto(s, i, svc);
    var up := down.(path := down.path[..|down.path| - 1]);
    assert up.path == s.path;
    ListingIgnoresRows(up, s, svc);
  }

  /** A listing replaces the rows on display: what was shown before does not matter. */
  lemma ListingIgnoresRows(a: State, b: State, svc: Service)
    requires a.(items := b.items) == b
    ensures ListBuckets(a, svc) == ListBuckets(b, svc)
    ensures ListObjects(a, svc) == ListObjects(b, svc)
  {
  }

  /** Going into a directory whose path is `p + [d]` lists exactly the prefix of `p` followed by `d/`. */
  lemma PrefixExtend(path: seq<string>, d: string)
    requires |path| >= 1
    ensures PrefixOf(path + [d]) == PrefixOf(path) + d + [Slash]
  {
    var q := path + [d];
    assert q[1..] == path[1..] + [d];
    if |path| == 1 {
      assert q[1..] == [d];
    } else {
      JoinAppend(path[1..], d);
    }
  }

  /** Entering the row a common prefix `PrefixOf(path) + d + "/"` produced lists that
      very common prefix: the row's name is `d`, and the new path's prefix is the
      common prefix again. */
  lemma DescendListsCommonPrefix(path: seq<string>, d: string)
    requires |path| >= 1
    requires d != "" && Slash !in d
    ensures var cp := PrefixOf(path) + d + [Slash];
      DirName(cp) == d && PrefixOf(path + [DirName(cp)]) == cp
  {
    DirNameOfChild(PrefixOf(path), d);
    PrefixExtend(path, d);
  }

  /** The parent row a listing below the bucket root starts with. */
  predicate IsParentRow(it: Item) {
    it.kind == Dir && it.name == ParentName
  }

  /** Entering a row, with the parent row taken as the way up: the corrected
      `_navigate_into` (see `ParentRowDescends`). */
  function Enter(s: State, i: int, svc: Service): (r: State)
    ensures 0 <= i < |s.items| && IsParentRow(s.items[i]) ==>
      && r.path == (if s.path == [] then [] else s.path[..|s.path| - 1])
      && r.selected == s.selected
    ensures !(0 <= i < |s.items| && IsParentRow(s.items[i])) ==> r == NavigateInto(s, i, svc)
  {
    if 0 <= i < |s.items| && IsParentRow(s.items[i]) then NavigateUp(s, svc)
    else NavigateInto(s, i, svc)
  }

  /** The row `_handle_path_change` picks for `name`: the first row so named. */
  predicate FirstNamed(items: seq<Item>, name: string, j: int) {
    && 0 <= j < |items| && items[j].name == name
    && forall k :: 0 <= k < j ==> items[k].name != name
  }

  /** The first row named `name`, if any. */
  function FirstIndex(items: seq<Item>, name: string): (r: Option<nat>)
    ensures r.Some? ==> FirstNamed(items, name, r.value)
    ensures r.None? ==> forall j :: 0 <= j < |items| ==> items[j].name != name
    decreases |items|
  {
    if items == [] then None
    else if items[0].name == name then Some(0)
    else match FirstIndex(items[1..], name)
      case None => None
      case Some(j) => Some(j + 1)
  }

  datatype Direction = Up | In

  /** The first row so named is unique, so `FirstIndex` finds exactly it. */
  lemma FirstIndexIsFirstNamed(items: seq<Item>, name: string)
    ensures forall j :: FirstNamed(items, name, j) <==> FirstIndex(items, name) == Some(j)
  {
    var r := FirstIndex(items, name);
    forall j | FirstNamed(items, name, j)
      ensures r == Some(j)
    {
    }
  }

  /** `_handle_path_change`: "up" goes up; "in" with a non-empty name hands the
      first row of that name to `_navigate_into`, and does nothing when there is
      none. */
  function HandlePathChange(s: State, direction: Direction, name: Option<string>, svc: Service): (r: State)
    ensures direction == Up ==> r == NavigateUp(s, svc)
    ensures direction == In && (name.None? || name.value == "") ==> r == s
    ensures direction == In && name.Some? && name.value != "" ==>
      && (forall j :: FirstNamed(s.items, name.value, j) ==> r == NavigateInto(s, j, svc))
      && ((forall j :: 0 <= j < |s.items| ==> s.items[j].name != name.value) ==> r == s)
  {
    match direction
    case Up => NavigateUp(s, svc)
    case In =>
      if name.None? || name.value == "" then s
      else
        FirstIndexIsFirstNamed(s.items, name.value);
        match FirstIndex(s.items, name.value)
        case None => s
        case Some(i) => NavigateInto(s, i, svc)
  }

  /** The corrected `_handle_path_change`: as above, but the row is entered with
      `Enter`, so the parent row leads up (see `ParentRowDescends`). */
  function HandlePathChangeFixed(s: State, direction: Direction, name: Option<string>, svc: Service): (r: State)
    ensures direction == Up ==> r == NavigateUp(s, svc)
    ensures direction == In && (name.None? || name.value == "") ==> r == s
    ensures direction == In && name.Some? && name.value != "" ==>
      && (forall j :: FirstNamed(s.items, name.value, j) ==> r == Enter(s, j, svc))
      && ((forall j :: 0 <= j < |s.items| ==> s.items[j].name != name.value) ==> r == s)
  {
    match direction
    case Up => NavigateUp(s, svc)
    case In =>
      if name.None? || name.value == "" then s
      else
        FirstIndexIsFirstNamed(s.items, name.value);
        match FirstIndex(s.items, name.value)
        case None => s
        case Some(i) => Enter(s, i, svc)
  }

  // ===== selection =====

  /** The key `_handle_item_selection` records: the path and the row name joined by
      '/', with leading and trailing separators stripped. */
  function Qualify(path: seq<string>, name: string): (k: string)
    ensures !StartsWithSlash(k) && !EndsWithSlash(k)
  {
    Strip(Join(path) + [Slash] + name)
  }

  /** Path segments as the navigator creates them: non-empty and slash-free. */
  predicate Segment(x: string) {
    x != "" && Slash !in x
  }

  predicate Segments(path: seq<string>) {
    forall i :: 0 <= i < |path| ==> Segment(path[i])
  }

  lemma StripSlashName(name: string)
    requires Segment(name)
    ensures Strip([Slash] + name) == name
  {
    var s := [Slash] + name;
    assert s[..|s|] == s;
    assert RStrip(s) == s;
    assert s[1..] == name;
    assert LStrip(s) == LStrip(name) == name;
  }

  /** A qualified key splits back into the path and the name. */
  lemma QualifyRoundTrip(path: seq<string>, name: string)
    requires Segments(path) && Segment(name)
    ensures Split(Qualify(path, name)) == path + [name]
  {
    var parts := path + [name];
    assert Segments(parts);
    if path == [] {
      assert Join(path) + [Slash] + name == [Slash] + name;
      StripSlashName(name);
      assert parts == [name];
      SplitJoin(parts);
    } else {
      JoinAppend(path, name);
      JoinNoSlashEnds(parts);
      SplitJoin(parts);
    }
  }

  /** The key the selection records for a row: the qualified key, with a trailing
      '/' for a directory row so that deleting it deletes the directory's contents
      (the corrected key; see `DirectoryDeleteIsSingle`). */
  function SelectionKey(path: seq<string>, it: Item): (k: string)
    ensures k == Qualify(path, it.name) || k == Qualify(path, it.name) + [Slash]
    ensures EndsWithSlash(k) <==> it.kind == Dir
  {
    if it.kind == Dir then Qualify(path, it.name) + [Slash] else Qualify(path, it.name)
  }

  /** Position of the first `k` in `xs`. */
  function Position(xs: seq<string>, k: string): (i: nat)
    requires k in xs
    ensures i < |xs| && xs[i] == k && k !in xs[..i]
    decreases |xs|
  {
    if xs[0] == k then 0
    else
      var j := Position(xs[1..], k);
      assert xs[..j + 1] == [xs[0]] + xs[1..][..j];
      1 + j
  }

  /** `list.remove`: `xs` without its first `k`, the other keys in their order. */
  function RemoveFirst(xs: seq<string>, k: string): (r: seq<string>)
    requires k in xs
    ensures var i := Position(xs, k); r == xs[..i] + xs[i + 1..]
    ensures |r| == |xs| - 1
    ensures multiset(r) == multiset(xs) - multiset{k}
    decreases |xs|
  {
    if xs[0] == k then
      assert xs == [k] + xs[1..];
      xs[1..]
    else
      var rest := RemoveFirst(xs[1..], k);
      RemoveFirstStep(xs, k, rest);
      [xs[0]] + rest
  }

  lemma RemoveFirstStep(xs: seq<string>, k: string, rest: seq<string>)
    requires k in xs && xs[0] != k
    requires var j := Position(xs[1..], k); rest == xs[1..][..j] + xs[1..][j + 1..]
    requires multiset(rest) == multiset(xs[1..]) - multiset{k}
    ensures var i := Position(xs, k); [xs[0]] + rest == xs[..i] + xs[i + 1..]
    ensures multiset([xs[0]] + rest) == multiset(xs) - multiset{k}
  {
    assert xs == [xs[0]] + xs[1..];
    var j := Position(xs[1..], k);
    assert Position(xs, k) == j + 1;
    assert xs[..j + 1] == [xs[0]] + xs[1..][..j];
    assert xs[j + 2..] == xs[1..][j + 1..];
  }

  /** `r` is `xs` with the first `k` removed, the others kept in order, when `k`
      is present, and `xs` with `k` appended otherwise. */
  predicate Toggled(xs: seq<string>, k: string, r: seq<string>) {
    && (k in xs ==> var i := Position(xs, k); r == xs[..i] + xs[i + 1..])
    && (k !in xs ==> r == xs + [k])
  }

  /** `list.remove` when present, `list.append` otherwise. */
  function Toggle(xs: seq<string>, k: string): (r: seq<string>)
    ensures Toggled(xs, k, r)
    ensures k in xs ==> multiset(r) == multiset(xs) - multiset{k}
  {
    if k in xs then RemoveFirst(xs, k) else xs + [k]
  }

  lemma NoDuplicatesMultiset(xs: seq<string>)
    ensures NoDuplicates(xs) <==> forall x :: multiset(xs)[x] <= 1
  {
    if !NoDuplicates(xs) {
      var i, j :| 0 <= i < j < |xs| && xs[i] == xs[j];
      assert xs == xs[..j] + [xs[j]] + xs[j + 1..];
      assert xs[i] in xs[..j];
      assert multiset(xs)[xs[j]] >= 2;
    }
    if NoDuplicates(xs) {
      forall x
        ensures multiset(xs)[x] <= 1
      {
        NoDuplicatesCount(xs, x);
      }
    }
  }

  lemma {:induction false} NoDuplicatesCount(xs: seq<string>, x: string)
    requires NoDuplicates(xs)
    ensures multiset(xs)[x] <= 1
    decreases |xs|
  {
    if xs != [] {
      assert xs == [xs[0]] + xs[1..];
      assert NoDuplicates(xs[1..]);
      NoDuplicatesCount(xs[1..], x);
      if xs[0] == x {
        assert x !in xs[1..];
      }
    }
  }

  /** On a list without duplicates, toggling flips whether `k` is present, leaves every
      other key's membership alone, and never introduces a duplicate. */
  lemma ToggleMembership(xs: seq<string>, k: string)
    requires NoDuplicates(xs)
    ensures NoDuplicates(Toggle(xs, k))
    ensures k in Toggle(xs, k) <==> k !in xs
    ensures forall x :: x != k ==> (x in Toggle(xs, k) <==> x in xs)
  {
    var r := Toggle(xs, k);
    NoDuplicatesMultiset(xs);
    NoDuplicatesMultiset(r);
    forall x
      ensures (x in r <==> multiset(r)[x] > 0) && (x in xs <==> multiset(xs)[x] > 0)
    {
      assert x in r <==> x in multiset(r);
      assert x in xs <==> x in multiset(xs);
    }
  }

  /** Toggling the same key twice restores which keys are selected; when the key
      was not selected, it restores the list exactly. */
  lemma ToggleTwice(xs: seq<string>, k: string)
    requires NoDuplicates(xs)
    ensures forall x :: x in Toggle(Toggle(xs, k), k) <==> x in xs
    ensures k !in xs ==> Toggle(Toggle(xs, k), k) == xs
  {
    var once := Toggle(xs, k);
    ToggleMembership(xs, k);
    ToggleMembership(once, k);
    forall x
      ensures x in Toggle(once, k) <==> x in xs
    {
      if x != k {
        assert x in Toggle(once, k) <==> x in once;
      }
    }
    if k !in xs {
      assert once == xs + [k];
      RemoveLast(xs, k);
    }
  }

  lemma {:induction false} RemoveLast(xs: seq<string>, k: string)
    requires k !in xs
    ensures RemoveFirst(xs + [k], k) == xs
    decreases |xs|
  {
    if xs != [] {
      assert (xs + [k])[1..] == xs[1..] + [k];
      RemoveLast(xs[1..], k);
    }
  }

  /** `_handle_item_selection`: toggles the row's qualified key, removing its first
      occurrence or appending it; an index out of range changes nothing. */
  function ToggleSelection(s: State, i: int): (r: State)
    ensures !(0 <= i < |s.items|) ==> r == s
    ensures 0 <= i < |s.items| ==>
      && r.(selected := s.selected) == s
      && Toggled(s.selected, Qualify(s.path, s.items[i].name), r.selected)
  {
    if 0 <= i < |s.items| then
      var k := Qualify(s.path, s.items[i].name);
      var selected := Toggle(s.selected, k);
      s.(selected := selected)
    else s
  }

  /** The corrected `_handle_item_selection`: the same toggle on `SelectionKey`,
      which keeps a directory row's trailing '/'. */
  function ToggleSelectionFixed(s: State, i: int): (r: State)
    ensures !(0 <= i < |s.items|) ==> r == s
    ensures 0 <= i < |s.items| ==>
      && r.(selected := s.selected) == s
      && Toggled(s.selected, SelectionKey(s.path, s.items[i]), r.selected)
  {
    if 0 <= i < |s.items| then
      var k := SelectionKey(s.path, s.items[i]);
      var selected := Toggle(s.selected, k);
      s.(selected := selected)
    else s
  }

  // ===== deletion =====

  /** `item_key.split("/")` into the bucket and the rest joined back: the key cut
      at its first '/', or the whole key and "" when it has none. */
  function SplitKey(key: string): (r: (string, string))
    ensures Slash !in key ==> r == (key, "")
    ensures Slash in key ==>
      var i := IndexOf(key, Slash);
      r.0 == key[..i] && r.1 == key[i + 1..]
  {
    var parts := Split(key);
    SplitFirst(key);
    (parts[0], if |parts| > 1 then Join(parts[1..]) else "")
  }

  /** The first piece of a split is what precedes the first '/', and the other
      pieces join back into what follows it. */
  lemma SplitFirst(key: string)
    ensures Slash !in key ==> Split(key) == [key]
    ensures Slash in key ==>
      var i := IndexOf(key, Slash);
      && |Split(key)| > 1
      && Split(key)[0] == key[..i]
      && Join(Split(key)[1..]) == key[i + 1..]
  {
    if Slash in key {
      SplitFirstAt(key, IndexOf(key, Slash));
    }
  }

  lemma SplitFirstAt(key: string, i: nat)
    requires Slash in key && i == IndexOf(key, Slash)
    ensures |Split(key)| > 1 && Split(key)[0] == key[..i] && Join(Split(key)[1..]) == key[i + 1..]
  {
    var rest := key[i + 1..];
    var parts := Split(key);
    assert parts == [key[..i]] + Split(rest);
    assert parts[1..] == Split(rest);
    JoinSplit(rest);
  }

  /** A key is cut at its first separator. */
  lemma SplitKeyAt(x: string, y: string)
    requires Slash !in x
    ensures SplitKey(x + [Slash] + y) == (x, y)
  {
    var key := x + [Slash] + y;
    assert key[|x|] == Slash;
    var i := IndexOf(key, Slash);
    assert key[..|x|] == x;
    assert i <= |x| by {
      assert key[|x|] == Slash;
    }
    assert i == |x|;
    assert key[..i] == x && key[i + 1..] == y;
  }

  /** The calls of `calls` actually made when each call that `fails` raises: all of
      them, or those up to and including the first that raises. */
  function Send(calls: seq<S3Client.DeleteCall>, fails: S3Client.DeleteCall -> bool)
    : (r: (seq<S3Client.DeleteCall>, bool))
    ensures r.0 <= calls
    ensures r.1 <==> forall j :: 0 <= j < |calls| ==> !fails(calls[j])
    ensures r.1 ==> r.0 == calls
    ensures !r.1 ==> |r.0| > 0 && fails(r.0[|r.0| - 1])
    ensures forall j :: 0 <= j < |r.0| - 1 ==> !fails(r.0[j])
    decreases |calls|
  {
    if calls == [] then ([], true)
    else if fails(calls[0]) then ([calls[0]], false)
    else
      var (rest, ok) := Send(calls[1..], fails);
      assert forall j :: 0 < j < |calls| ==> calls[j] == calls[1..][j - 1];
      ([calls[0]] + rest, ok)
  }

  /** The outcome of deleting one selected key. */
  datatype Attempt = Attempt(key: string, sent: seq<S3Client.DeleteCall>, ok: bool)

  /** One iteration of `_delete_selected`'s loop: split the key, hand it to
      `delete_object`, and catch whatever that raises. */
  function AttemptKey(key: string, svc: Service, fails: S3Client.DeleteCall -> bool): (a: Attempt)
    ensures a.key == key
    ensures var calls := S3Client.DeleteObject(SplitKey(key).0, SplitKey(key).1, svc.recursive);
      && a.sent <= calls
      && (a.ok <==> forall j :: 0 <= j < |calls| ==> !fails(calls[j]))
      && (a.ok ==> a.sent == calls)
    ensures !a.ok ==> |a.sent| > 0 && fails(a.sent[|a.sent| - 1])
    ensures forall j :: 0 <= j < |a.sent| - 1 ==> !fails(a.sent[j])
  {
    var (bucket, k) := SplitKey(key);
    var (sent, ok) := Send(S3Client.DeleteObject(bucket, k, svc.recursive), fails);
    Attempt(key, sent, ok)
  }

  /** The loop of `_delete_selected`: every key is attempted, in order, whatever
      happened to the keys before it. */
  function AttemptAll(keys: seq<string>, svc: Service, fails: S3Client.DeleteCall -> bool): (r: seq<Attempt>)
    ensures |r| == |keys|
    ensures forall i :: 0 <= i < |keys| ==> r[i].key == keys[i]
    decreases |keys|
  {
    if keys == [] then []
    else
      var rest := AttemptAll(keys[1..], svc, fails);
      AttemptKeysStep(keys, rest);
      [AttemptKey(keys[0], svc, fails)] + rest
  }

  /** The keys of `AttemptAll`'s recursive step, kept apart to keep each proof small. */
  lemma AttemptKeysStep(keys: seq<string>, rest: seq<Attempt>)
    requires keys != [] && |rest| == |keys| - 1
    requires forall i :: 0 <= i < |rest| ==> rest[i].key == keys[1..][i]
    ensures forall a: Attempt, i :: a.key == keys[0] && 0 <= i < |keys| ==> ([a] + rest)[i].key == keys[i]
  {
  }

  /** Attempts are isolated: the attempt of each key is what deleting that key
      alone would give. */
  lemma {:induction false} AttemptAllIsolated(keys: seq<string>, svc: Service, fails: S3Client.DeleteCall -> bool)
    ensures forall i :: 0 <= i < |keys| ==> AttemptAll(keys, svc, fails)[i] == AttemptKey(keys[i], svc, fails)
    decreases |keys|
  {
    if keys != [] {
      var r, rest := AttemptAll(keys, svc, fails), AttemptAll(keys[1..], svc, fails);
      assert r == [AttemptKey(keys[0], svc, fails)] + rest;
      AttemptAllIsolated(keys[1..], svc, fails);
      forall i | 1 <= i < |keys|
        ensures r[i] == AttemptKey(keys[i], svc, fails)
      {
        assert r[i] == rest[i - 1] && keys[1..][i - 1] == keys[i];
      }
    }
  }

  /** The delete requests sent, attempt after attempt. */
  function SentCalls(attempts: seq<Attempt>): seq<S3Client.DeleteCall>
  {
    if attempts == [] then [] else attempts[0].sent + SentCalls(attempts[1..])
  }

  /** The keys whose deletion raised (each reported by `show_error`), in order. */
  function FailedKeys(attempts: seq<Attempt>): (r: seq<string>)
    ensures forall i :: 0 <= i < |attempts| && !attempts[i].ok ==> attempts[i].key in r
    ensures forall k :: k in r ==> exists i :: 0 <= i < |attempts| && attempts[i].key == k && !attempts[i].ok
    decreases |attempts|
  {
    if attempts == [] then []
    else
      var rest := FailedKeys(attempts[1..]);
      assert forall i :: 0 < i < |attempts| ==> attempts[i] == attempts[1..][i - 1];
      (if attempts[0].ok then [] else [attempts[0].key]) + rest
  }

  /** Failures are reported in attempt order, once per failed attempt. */
  lemma {:induction false} FailedKeysAppend(a: seq<Attempt>, b: seq<Attempt>)
    ensures FailedKeys(a + b) == FailedKeys(a) + FailedKeys(b)
    decreases |a|
  {
    if a == [] {
      assert a + b == b;
    } else {
      assert (a + b)[0] == a[0];
      assert (a + b)[1..] == a[1..] + b;
      FailedKeysAppend(a[1..], b);
    }
  }

  datatype DeleteOutcome = DeleteOutcome(state: State, sent: seq<S3Client.DeleteCall>, failed: seq<string>)

  /** `_delete_selected`: with keys selected and the deletion confirmed, attempts
      every selected key, clears the selection and refreshes; otherwise nothing. */
  function DeleteSelected(s: State, confirmed: bool, fails: S3Client.DeleteCall -> bool, svc: Service)
    : (r: DeleteOutcome)
    ensures s.selected == [] || !confirmed ==> r.state == s && r.sent == [] && r.failed == []
    ensures s.selected != [] && confirmed ==>
      && r.state.selected == [] && r.state.path == s.path
      && r.state.sortBy == s.sortBy && r.state.reverse == s.reverse
      && Sorted(r.state.sortBy, r.state.reverse, r.state.items)
      && r.state == Refresh(s.(selected := []), svc)
      && r.sent == SentCalls(AttemptAll(s.selected, svc, fails))
      && (forall k :: k in r.failed <==> k in s.selected && !AttemptKey(k, svc, fails).ok)
  {
    if s.selected == [] || !confirmed then DeleteOutcome(s, [], [])
    else
      var attempts := AttemptAll(s.selected, svc, fails);
      AttemptAllIsolated(s.selected, svc, fails);
      var failed := FailedKeys(attempts);
      assert forall k :: k in s.selected ==> exists i :: 0 <= i < |s.selected| && s.selected[i] == k;
      DeleteOutcome(Refresh(s.(selected := []), svc), SentCalls(attempts), failed)
  }

  /** When nothing raises, each selected key gets exactly the requests `delete_object`
      makes for it, in selection order, and nothing is reported. */
  lemma {:induction false} AllSucceed(keys: seq<string>, svc: Service, fails: S3Client.DeleteCall -> bool)
    requires forall c :: !fails(c)
    ensures var attempts := AttemptAll(keys, svc, fails);
      && FailedKeys(attempts) == []
      && SentCalls(attempts) == DeleteRequests(keys, svc)
    decreases |keys|
  {
    if keys != [] {
      var attempts := AttemptAll(keys, svc, fails);
      assert attempts[1..] == AttemptAll(keys[1..], svc, fails);
      AllSucceed(keys[1..], svc, fails);
    }
  }

  /** The requests `delete_object` makes for each key in turn. */
  function DeleteRequests(keys: seq<string>, svc: Service): seq<S3Client.DeleteCall>
    decreases |keys|
  {
    if keys == [] then []
    else
      var (bucket, k) := SplitKey(keys[0]);
      S3Client.DeleteObject(bucket, k, svc.recursive) + DeleteRequests(keys[1..], svc)
  }

  /** The qualified key of a row below well-formed segments is the segments joined. */
  lemma QualifyIsJoin(path: seq<string>, name: string)
    requires Segments(path) && Segment(name)
    ensures Qualify(path, name) == Join(path + [name])
  {
    if path == [] {
      StripSlashName(name);
      assert path + [name] == [name];
    } else {
      QualifyBelowSegments(path, name);
    }
  }

  /** `QualifyIsJoin` below at least one segment. */
  lemma QualifyBelowSegments(path: seq<string>, name: string)
    requires Segments(path) && Segment(name) && path != []
    ensures Qualify(path, name) == Join(path + [name])
  {
    var parts := path + [name];
    assert Segments(parts);
    JoinAppend(path, name);
    JoinNoSlashEnds(parts);
  }

  /** As written, the key recorded for any row never ends in '/', so deleting a
      selected directory row sends one single-object delete of the directory's
      name and never reaches prefix deletion. */
  lemma DirectoryDeleteIsSingle(path: seq<string>, name: string, recursive: S3Client.Lister)
    ensures var (bucket, k) := SplitKey(Qualify(path, name));
      S3Client.DeleteObject(bucket, k, recursive) == [S3Client.DeleteOne(bucket, k)]
  {
    SplitKeyKeepsEnd(Qualify(path, name));
  }

  /** The part of a key after its bucket ends in '/' only if the key does. */
  lemma SplitKeyKeepsEnd(key: string)
    ensures EndsWithSlash(SplitKey(key).1) ==> EndsWithSlash(key)
  {
    if Slash in key {
      var i := IndexOf(key, Slash);
      var k := key[i + 1..];
      assert SplitKey(key).1 == k;
      if k != [] {
        assert k[|k| - 1] == key[|key| - 1];
      }
    } else {
      assert SplitKey(key).1 == "";
    }
  }

  /** The same for the directory `photos` in bucket `b`: one delete of the key
      "photos". That removes an object of exactly that name if one exists, and
      leaves every object under `photos/`. */
  lemma DirectoryDeleteExample(recursive: S3Client.Lister)
    ensures SplitKey(Qualify(["b"], "photos")) == ("b", "photos")
    ensures S3Client.DeleteObject("b", "photos", recursive) == [S3Client.DeleteOne("b", "photos")]
  {
    var path, parts := ["b"], ["b", "photos"];
    assert Segments(path) && Segment("photos");
    QualifyIsJoin(path, "photos");
    assert path + ["photos"] == parts;
    assert parts[1..] == ["photos"];
    assert Join(parts) == "b" + [Slash] + "photos";
    SplitKeyAt("b", "photos");
    assert !EndsWithSlash("photos");
  }

  /** With the corrected key, a selected directory row is deleted by prefix: the
      bucket is the first path segment and the prefix is the one listing that
      directory, so every object below it is deleted. A file row is deleted by
      its exact key. */
  lemma SelectionKeyTargets(path: seq<string>, it: Item)
    requires |path| >= 1 && Segments(path) && Segment(it.name)
    ensures var (bucket, k) := SplitKey(SelectionKey(path, it));
      && bucket == path[0]
      && (it.kind == Dir ==> k == PrefixOf(path + [it.name]))
      && (it.kind != Dir ==> k == PrefixOf(path) + it.name)
  {
    var tail := PrefixOf(path) + it.name;
    QualifyFirst(path, it.name);
    PrefixExtend(path, it.name);
    if it.kind == Dir {
      assert SelectionKey(path, it) == path[0] + [Slash] + (tail + [Slash]);
      SplitKeyAt(path[0], tail + [Slash]);
    } else {
      SplitKeyAt(path[0], tail);
    }
  }

  /** The qualified key of a row is its bucket, a '/', and the row's key within
      the bucket. */
  lemma QualifyFirst(path: seq<string>, name: string)
    requires |path| >= 1 && Segments(path) && Segment(name)
    ensures Qualify(path, name) == path[0] + [Slash] + (PrefixOf(path) + name)
  {
    QualifyIsJoin(path, name);
    JoinFirst(path, name);
  }

  lemma JoinFirst(path: seq<string>, name: string)
    requires |path| >= 1
    ensures Join(path + [name]) == path[0] + [Slash] + (PrefixOf(path) + name)
  {
    var tail := path[1..] + [name];
    calc {
      Join(path + [name]);
      { assert path + [name] == [path[0]] + tail; }
      Join([path[0]] + tail);
      { JoinCons(path[0], tail); }
      path[0] + [Slash] + Join(tail);
      { JoinTail(path, name); }
      path[0] + [Slash] + (PrefixOf(path) + name);
    }
  }

  /** Below the bucket, the rest of the path and a name join into the prefix and the name. */
  lemma JoinTail(path: seq<string>, name: string)
    requires |path| >= 1
    ensures Join(path[1..] + [name]) == PrefixOf(path) + name
  {
    if |path| > 1 {
      JoinAppend(path[1..], name);
    } else {
      assert path[1..] + [name] == [name];
    }
  }

  /** With the corrected key, deleting a selected directory row deletes every
      object the recursive listing of that directory's prefix returns, all
      through batched deletes in the path's bucket. */
  lemma SelectedDirectoryDeletesContents(path: seq<string>, it: Item, recursive: S3Client.Lister)
    requires |path| >= 1 && Segments(path) && Segment(it.name) && it.kind == Dir
    ensures var (bucket, k) := SplitKey(SelectionKey(path, it));
      var calls := S3Client.DeleteObject(bucket, k, recursive);
      && (forall c :: c in calls ==> c.DeleteMany? && c.bucket == path[0])
      && S3Client.DeletedKeys(calls) == S3Client.Keys(S3Client.AllObjects(recursive(path[0], PrefixOf(path + [it.name]))))
  {
    SelectionKeyTargets(path, it);
    assert EndsWithSlash(PrefixOf(path + [it.name]));
  }

  // ===== sorting =====

  /** `_sort_items`: the rows, stably sorted by the current field and direction. */
  function SortItems(s: State): (r: State)
    ensures r.(items := s.items) == s
    ensures multiset(r.items) == multiset(s.items)
    ensures Sorted(s.sortBy, s.reverse, r.items)
    ensures SameKeyClasses(s.sortBy, r.items, s.items)
  {
    s.(items := Sort(s.sortBy, s.reverse, s.items))
  }

  /** Rows already in order are left as they are, so sorting twice is sorting once. */
  lemma SortItemsIdempotent(s: State)
    ensures Sorted(s.sortBy, s.reverse, s.items) ==> SortItems(s) == s
    ensures SortItems(SortItems(s)) == SortItems(s)
  {
    if Sorted(s.sortBy, s.reverse, s.items) {
      SortOfSorted(s.sortBy, s.reverse, s.items);
    }
    SortIdempotent(s.sortBy, s.reverse, s.items);
  }

  /** The columns in the order a press steps through them. */
  const SortOptions: seq<Field> := [Name, Size, LastModified]

  /** The place of a column in `SortOptions` (`sort_options.index`). */
  function OptionIndex(f: Field): (i: nat)
    ensures i < |SortOptions| && SortOptions[i] == f
  {
    match f
    case Name => 0
    case Size => 1
    case LastModified => 2
  }

  /** The sort settings after one press: name, size, last-modified, then back to
      name with the direction flipped. */
  function NextSort(f: Field, reverse: bool): (r: (Field, bool))
    ensures r.0 != f
    ensures r.1 != reverse <==> f == LastModified
    ensures OptionIndex(f) == |SortOptions| - 1 ==> r == (SortOptions[0], !reverse)
    ensures OptionIndex(f) < |SortOptions| - 1 ==> r == (SortOptions[OptionIndex(f) + 1], reverse)
  {
    match f
    case Name => (Size, reverse)
    case Size => (LastModified, reverse)
    case LastModified => (Name, !reverse)
  }

  /** `_toggle_sort`: moves to the next sort settings and sorts the rows by them,
      whether or not they are an error listing. */
  function ToggleSort(s: State): (r: State)
    ensures (r.sortBy, r.reverse) == NextSort(s.sortBy, s.reverse)
    ensures r.path == s.path && r.selected == s.selected
    ensures multiset(r.items) == multiset(s.items)
    ensures Sorted(r.sortBy, r.reverse, r.items)
    ensures SameKeyClasses(r.sortBy, r.items, s.items)
  {
    var (f, reverse) := NextSort(s.sortBy, s.reverse);
    SortItems(s.(sortBy := f, reverse := reverse))
  }

  /** Three presses return to the same field with the direction flipped; six
      presses return to the original settings. */
  lemma SortCycle(s: State)
    ensures var r := ToggleSort(s);
      r.sortBy == SortOptions[(OptionIndex(s.sortBy) + 1) % |SortOptions|]
    ensures var r := ToggleSort(ToggleSort(ToggleSort(s)));
      r.sortBy == s.sortBy && r.reverse == !s.reverse
    ensures var r := ToggleSort(ToggleSort(ToggleSort(ToggleSort(ToggleSort(ToggleSort(s))))));
      r.sortBy == s.sortBy && r.reverse == s.reverse
  {
  }

  /** The sequence of sorts in the navigator's sort test: by name, by size, by
      modification time, then by modification time reversed. */
  lemma SortItemsExample(s: State)
    requires s.items == [RowZ, RowA, RowM] && s.sortBy == Name && !s.reverse
    ensures var byName := SortItems(s);
      var bySize := SortItems(byName.(sortBy := Size));
      var byDate := SortItems(bySize.(sortBy := LastModified));
      var reversed := SortItems(byDate.(reverse := true));
      && byName.items == [RowA, RowM, RowZ]
      && bySize.items == [RowA, RowZ, RowM]
      && byDate.items == [RowZ, RowM, RowA]
      && reversed.items == [RowA, RowM, RowZ]
  {
    SortByNameExample();
    SortBySizeExample();
    SortByDateExample();
    SortByDateReversedExample();
  }

  // ===== the state machine =====

  /** The callbacks the display invokes. */
  datatype Event =
    | PathChanged(direction: Direction, name: Option<string>)
    | ItemSelected(index: int)
    | DeletePressed(confirmed: bool)
    | RefreshPressed
    | SortPressed

  /** What each callback may change: only a path change moves the path, only a
      selection or a deletion touches the selection (a deletion empties it or
      changes nothing), and only a sort press changes the sort settings. */
  predicate Framed(s: State, e: Event, r: State) {
    && (e.PathChanged? || r.path == s.path)
    && (e.ItemSelected? || e.DeletePressed? || r.selected == s.selected)
    && (e.DeletePressed? ==> r.selected == [] || r == s)
    && (e.SortPressed? || (r.sortBy == s.sortBy && r.reverse == s.reverse))
  }

  /** The callbacks `run` installs, as written. */
  function Step(s: State, e: Event, svc: Service, fails: S3Client.DeleteCall -> bool): (r: State)
    ensures Framed(s, e, r)
  {
    match e
    case PathChanged(d, name) => HandlePathChange(s, d, name, svc)
    case ItemSelected(i) => ToggleSelection(s, i)
    case DeletePressed(confirmed) => DeleteSelected(s, confirmed, fails, svc).state
    case RefreshPressed => Refresh(s, svc)
    case SortPressed => ToggleSort(s)
  }

  /** The callbacks with both corrections: directory rows are selected with a
      trailing '/', and the parent row leads up. */
  function StepFixed(s: State, e: Event, svc: Service, fails: S3Client.DeleteCall -> bool): (r: State)
    ensures Framed(s, e, r)
  {
    match e
    case PathChanged(d, name) => HandlePathChangeFixed(s, d, name, svc)
    case ItemSelected(i) => ToggleSelectionFixed(s, i)
    case DeletePressed(confirmed) => DeleteSelected(s, confirmed, fails, svc).state
    case RefreshPressed => Refresh(s, svc)
    case SortPressed => ToggleSort(s)
  }

  /** Every callback keeps the selection free of duplicates and the rows in sort
      order (unless an error listing is on display). */
  lemma StepPreservesValid(s: State, e: Event, svc: Service, fails: S3Client.DeleteCall -> bool)
    requires Valid(s)
    ensures Valid(Step(s, e, svc, fails))
  {
    match e
    case PathChanged(d, name) =>
    case ItemSelected(i) =>
      if 0 <= i < |s.items| {
        ToggleMembership(s.selected, Qualify(s.path, s.items[i].name));
      }
    case DeletePressed(confirmed) =>
    case RefreshPressed =>
    case SortPressed =>
  }

  /** The same invariant for the corrected callbacks. */
  lemma StepFixedPreservesValid(s: State, e: Event, svc: Service, fails: S3Client.DeleteCall -> bool)
    requires Valid(s)
    ensures Valid(StepFixed(s, e, svc, fails))
  {
    match e
    case PathChanged(d, name) =>
    case ItemSelected(i) =>
      if 0 <= i < |s.items| {
        ToggleMembership(s.selected, SelectionKey(s.path, s.items[i]));
      }
    case DeletePressed(confirmed) =>
    case RefreshPressed =>
    case SortPressed =>
  }

  /** One transition and the service's answers during it. */
  datatype Input = Input(event: Event, svc: Service)

  /** The state after a sequence of callbacks, as written or corrected. */
  function Run(s: State, inputs: seq<Input>, fails: S3Client.DeleteCall -> bool, corrected: bool): (r: State)
    ensures inputs == [] ==> r == s
    ensures |inputs| == 1 && !corrected ==> r == Step(s, inputs[0].event, inputs[0].svc, fails)
    ensures |inputs| == 1 && corrected ==> r == StepFixed(s, inputs[0].event, inputs[0].svc, fails)
    decreases |inputs|
  {
    if inputs == [] then s
    else
      var next := if corrected then StepFixed(s, inputs[0].event, inputs[0].svc, fails)
                  else Step(s, inputs[0].event, inputs[0].svc, fails);
      Run(next, inputs[1..], fails, corrected)
  }

  /** Running two sequences of callbacks is running the second from where the first ends. */
  lemma {:induction false} RunConcat(s: State, a: seq<Input>, b: seq<Input>, fails: S3Client.DeleteCall -> bool, corrected: bool)
    ensures Run(s, a + b, fails, corrected) == Run(Run(s, a, fails, corrected), b, fails, corrected)
    decreases |a|
  {
    if a == [] {
      assert a + b == b;
    } else {
      assert (a + b)[0] == a[0];
      assert (a + b)[1..] == a[1..] + b;
      var next := if corrected then StepFixed(s, a[0].event, a[0].svc, fails)
                  else Step(s, a[0].event, a[0].svc, fails);
      RunConcat(next, a[1..], b, fails, corrected);
    }
  }

  /** Every state reachable from a valid one is valid, as written and corrected. */
  lemma {:induction false} RunPreservesValid(s: State, inputs: seq<Input>, fails: S3Client.DeleteCall -> bool, corrected: bool)
    requires Valid(s)
    ensures Valid(Run(s, inputs, fails, corrected))
    decreases |inputs|
  {
    if inputs != [] {
      var e, svc := inputs[0].event, inputs[0].svc;
      if corrected {
        StepFixedPreservesValid(s, e, svc, fails);
        RunPreservesValid(StepFixed(s, e, svc, fails), inputs[1..], fails, corrected);
      } else {
        StepPreservesValid(s, e, svc, fails);
        RunPreservesValid(Step(s, e, svc, fails), inputs[1..], fails, corrected);
      }
    }
  }

  // ===== the parent row =====

  /** Below the bucket root every listing starts with the parent row. */
  lemma ListingHasParentRow(s: State, svc: Service)
    requires |s.path| >= 2
    ensures exists i :: 0 <= i < |Refresh(s, svc).items| && IsParentRow(Refresh(s, svc).items[i])
  {
    var listing := ObjectListing(svc, s.path[0], PrefixOf(s.path));
    assert IsParentRow(listing[0]);
    var r := Refresh(s, svc);
    assert listing[0] in multiset(r.items);
  }

  /** As written, entering the parent row pushes ".." onto the path, so the next
      listing asks for a prefix ending in "../" instead of going up. */
  lemma ParentRowDescends(s: State, i: int, svc: Service)
    requires 0 <= i < |s.items| && IsParentRow(s.items[i])
    ensures NavigateInto(s, i, svc).path == s.path + [ParentName]
    ensures s.path != [] ==> PrefixOf(NavigateInto(s, i, svc).path) == PrefixOf(s.path) + ParentName + [Slash]
  {
    if s.path != [] {
      PrefixExtend(s.path, ParentName);
    }
  }

  /** Corrected, the parent row leads one level up, exactly as the "up" key does. */
  lemma ParentRowGoesUp(s: State, i: int, svc: Service)
    requires 0 <= i < |s.items| && IsParentRow(s.items[i])
    ensures Enter(s, i, svc) == NavigateUp(s, svc)
    ensures HandlePathChangeFixed(s, Up, None, svc) == Enter(s, i, svc)
  {
  }
}

=== FILE: s3_client.dfy ===
/** The storage client (`S3Client`) with the remote service abstracted away: the
    paginated responses of `list_objects_v2` are input data (a sequence of pages)
    and the delete requests it sends are returned as a trace of calls. */
module S3Client {
  import opened Wrappers
  import opened Strings
  import opened Items

  /** Per-request object limit of the S3 DeleteObjects API. */
  const BatchLimit: nat := 1000

  /** One entry of a ListBuckets response. */
  datatype BucketEntry = BucketEntry(name: string, creationDate: Option<int>)

  /** One entry of a page's `Contents`. */
  datatype Obj = Obj(key: string, size: int, lastModified: int)

  /** One page of a `list_objects_v2` response; an absent field is an empty sequence. */
  datatype Page = Page(commonPrefixes: seq<string>, contents: seq<Obj>)

  /** The service's answer to a delimiter-free listing of (bucket, prefix), page by page. */
  type Lister = (string, string) -> seq<Page>

  /** A request sent to the service: `delete_object` or `delete_objects`. */
  datatype DeleteCall =
    | DeleteOne(bucket: string, key: string)
    | DeleteMany(bucket: string, keys: seq<string>)

  // ===== list_buckets =====

  function BucketItem(b: BucketEntry, now: int): Item {
    Item(b.name, Bucket, 0, b.creationDate.GetOr(now))
  }

  /** `list_buckets`: one bucket row per response entry, in response order. */
  function ListBuckets(response: seq<BucketEntry>, now: int): (r: seq<Item>)
    ensures |r| == |response|
    ensures forall i :: 0 <= i < |r| ==>
      && r[i].name == response[i].name
      && r[i].kind == Bucket
      && r[i].size == 0
      && r[i].lastModified == (if response[i].creationDate.Some? then response[i].creationDate.value else now)
  {
    seq(|response|, i requires 0 <= i < |response| => BucketItem(response[i], now))
  }

  // ===== whole-listing views of a paginated response =====

  /** All `Contents` entries, page after page. */
  function AllObjects(pages: seq<Page>): seq<Obj>
  {
    if pages == [] then [] else pages[0].contents + AllObjects(pages[1..])
  }

  /** All `CommonPrefixes`, page after page. */
  function AllPrefixes(pages: seq<Page>): seq<string>
  {
    if pages == [] then [] else pages[0].commonPrefixes + AllPrefixes(pages[1..])
  }

  function Keys(objs: seq<Obj>): (keys: seq<string>)
    ensures |keys| == |objs|
    ensures forall i :: 0 <= i < |objs| ==> keys[i] == objs[i].key
  {
    seq(|objs|, i requires 0 <= i < |objs| => objs[i].key)
  }

  /** The sum of the sizes of `objs`. */
  function TotalSize(objs: seq<Obj>): int
  {
    if objs == [] then 0 else objs[0].size + TotalSize(objs[1..])
  }

  lemma {:induction false} AllObjectsAppend(a: seq<Page>, b: seq<Page>)
    ensures AllObjects(a + b) == AllObjects(a) + AllObjects(b)
    decreases |a|
  {
    if a == [] {
      assert a + b == b;
    } else {
      assert (a + b)[0] == a[0];
      assert (a + b)[1..] == a[1..] + b;
      AllObjectsAppend(a[1..], b);
    }
  }

  lemma AllObjectsSnoc(pages: seq<Page>, p: nat)
    requires p < |pages|
    ensures AllObjects(pages[..p + 1]) == AllObjects(pages[..p]) + pages[p].contents
  {
    assert pages[..p + 1] == pages[..p] + [pages[p]];
    AllObjectsAppend(pages[..p], [pages[p]]);
    assert AllObjects([pages[p]]) == pages[p].contents + AllObjects([]);
  }

  lemma KeysAppend(a: seq<Obj>, b: seq<Obj>)
    ensures Keys(a + b) == Keys(a) + Keys(b)
  {
  }

  lemma {:induction false} AllPrefixesAppend(a: seq<Page>, b: seq<Page>)
    ensures AllPrefixes(a + b) == AllPrefixes(a) + AllPrefixes(b)
    decreases |a|
  {
    if a == [] {
      assert a + b == b;
    } else {
      assert (a + b)[0] == a[0];
      assert (a + b)[1..] == a[1..] + b;
      AllPrefixesAppend(a[1..], b);
    }
  }

  lemma {:induction false} TotalSizeAppend(a: seq<Obj>, b: seq<Obj>)
    ensures TotalSize(a + b) == TotalSize(a) + TotalSize(b)
    decreases |a|
  {
    if a == [] {
      assert a + b == b;
    } else {
      assert (a + b)[0] == a[0];
      assert (a + b)[1..] == a[1..] + b;
      TotalSizeAppend(a[1..], b);
    }
  }

  lemma {:induction false} TotalSizeNonNegative(objs: seq<Obj>)
    requires forall i :: 0 <= i < |objs| ==> objs[i].size >= 0
    ensures TotalSize(objs) >= 0
    decreases |objs|
  {
    if objs != [] {
      TotalSizeNonNegative(objs[1..]);
    }
  }

  // ===== _calculate_directory_size =====

  /** The size of a directory: the sizes of every object listed under its prefix. */
  function DirectorySize(pages: seq<Page>): (n: int)
    ensures AllObjects(pages) == [] ==> n == 0
  {
    TotalSize(AllObjects(pages))
  }

  /** `_calculate_directory_size`: the running total over pages and their contents. */
  method CalculateDirectorySize(pages: seq<Page>) returns (total: int)
    ensures total == TotalSize(AllObjects(pages))
    ensures (forall o :: o in AllObjects(pages) ==> o.size >= 0) ==> total >= 0
  {
    total := 0;
    for p := 0 to |pages|
      invariant total == TotalSize(AllObjects(pages[..p]))
    {
      var contents := pages[p].contents;
      for c := 0 to |contents|
        invariant total == TotalSize(AllObjects(pages[..p])) + TotalSize(contents[..c])
      {
        assert contents[..c + 1] == contents[..c] + [contents[c]];
        TotalSizeAppend(contents[..c], [contents[c]]);
        total := total + contents[c].size;
      }
      assert contents[..|contents|] == contents;
      AllObjectsSnoc(pages, p);
      TotalSizeAppend(AllObjects(pages[..p]), contents);
    }
    assert pages[..|pages|] == pages;
    var all := AllObjects(pages);
    if forall o :: o in all ==> o.size >= 0 {
      TotalSizeNonNegative(all);
    }
  }

  /** A listing split into two runs of pages has the two runs' sizes added up. */
  lemma DirectorySizeAdditive(a: seq<Page>, b: seq<Page>)
    ensures DirectorySize(a + b) == DirectorySize(a) + DirectorySize(b)
  {
    AllObjectsAppend(a, b);
    TotalSizeAppend(AllObjects(a), AllObjects(b));
  }

  // ===== list_objects =====

  /** The synthetic `..` row put first in every listing below the bucket root. */
  function ParentEntry(now: int): Item {
    Item(ParentName, Dir, 0, now)
  }

  /** The directory row for common prefix `cp`, sized by a recursive listing of `cp`. */
  function DirEntry(bucket: string, cp: string, recursive: Lister, now: int): Item {
    Item(DirName(cp), Dir, DirectorySize(recursive(bucket, cp)), now)
  }

  /** A `Contents` entry is shown as a file: not the directory marker itself, not
      ending in '/', and with no '/' left once the prefix is cut off. */
  predicate Listed(prefix: string, o: Obj) {
    && o.key != prefix
    && !EndsWithSlash(o.key)
    && Slash !in Drop(o.key, |prefix|)
  }

  /** For an object under the prefix, listed means a direct child file: what
      follows the prefix is a non-empty name with no '/' in it. */
  lemma ListedIsDirectChild(prefix: string, o: Obj)
    requires prefix <= o.key
    ensures Listed(prefix, o) <==> var name := o.key[|prefix|..]; name != "" && Slash !in name
  {
    var name := o.key[|prefix|..];
    assert o.key == prefix + name;
    if name != "" {
      assert o.key[|o.key| - 1] == name[|name| - 1];
    }
  }

  function FileEntry(prefix: string, o: Obj): Item {
    Item(Drop(o.key, |prefix|), File, o.size, o.lastModified)
  }

  function Names(items: seq<Item>): set<string> {
    set it | it in items :: it.name
  }

  predicate DistinctNames(items: seq<Item>) {
    forall i, j :: 0 <= i < j < |items| ==> items[i].name != items[j].name
  }

  /** The directory rows of `items`, in order. */
  function Dirs(items: seq<Item>): (r: seq<Item>)
    ensures forall it :: it in r <==> it in items && it.kind == Dir
  {
    if items == [] then []
    else (if items[0].kind == Dir then [items[0]] else []) + Dirs(items[1..])
  }

  /** The file rows of one page, in order. */
  function FileEntries(prefix: string, objs: seq<Obj>): (r: seq<Item>)
    ensures forall it :: it in r ==> it.kind == File && Slash !in it.name
    ensures forall it :: it in r ==> exists o :: o in objs && Listed(prefix, o) && it == FileEntry(prefix, o)
    ensures forall o :: o in objs && Listed(prefix, o) ==> FileEntry(prefix, o) in r
  {
    if objs == [] then []
    else
      var rest := FileEntries(prefix, objs[1..]);
      assert forall o :: o in objs[1..] ==> o in objs;
      assert forall o :: o in objs ==> o == objs[0] || o in objs[1..];
      (if Listed(prefix, objs[0]) then [FileEntry(prefix, objs[0])] else []) + rest
  }

  /** The directory rows of one page's common prefixes. `seen` holds the names
      already shown; the result also returns the names seen afterwards. */
  function DirEntries(bucket: string, cps: seq<string>, recursive: Lister, now: int, seen: set<string>)
    : (r: (seq<Item>, set<string>))
    ensures forall it :: it in r.0 ==>
      && it.kind == Dir && it.name != "" && it.name !in seen
      && exists cp :: cp in cps && it == DirEntry(bucket, cp, recursive, now)
    ensures DistinctNames(r.0)
    ensures r.1 == seen + Names(r.0)
    ensures forall cp :: cp in cps && DirName(cp) != "" ==> DirName(cp) in r.1
    decreases |cps|
  {
    if cps == [] then ([], seen)
    else
      var name := DirName(cps[0]);
      if name != "" && name !in seen then
        var (rest, seen') := DirEntries(bucket, cps[1..], recursive, now, seen + {name});
        DirEntriesTake(bucket, cps, recursive, now, seen, rest, seen');
        ([DirEntry(bucket, cps[0], recursive, now)] + rest, seen')
      else
        var r := DirEntries(bucket, cps[1..], recursive, now, seen);
        DirEntriesSkip(bucket, cps, recursive, now, seen, r.0, r.1);
        r
  }

  /** The step of `DirEntries` that shows the first common prefix. */
  lemma DirEntriesTake(bucket: string, cps: seq<string>, recursive: Lister, now: int, seen: set<string>,
                       rest: seq<Item>, seen': set<string>)
    requires cps != [] && DirName(cps[0]) != "" && DirName(cps[0]) !in seen
    requires forall it :: it in rest ==>
      && it.kind == Dir && it.name != "" && it.name !in seen + {DirName(cps[0])}
      && exists cp :: cp in cps[1..] && it == DirEntry(bucket, cp, recursive, now)
    requires DistinctNames(rest)
    requires seen' == seen + {DirName(cps[0])} + Names(rest)
    requires forall cp :: cp in cps[1..] && DirName(cp) != "" ==> DirName(cp) in seen'
    ensures var items := [DirEntry(bucket, cps[0], recursive, now)] + rest;
      && (forall it :: it in items ==>
           && it.kind == Dir && it.name != "" && it.name !in seen
           && exists cp :: cp in cps && it == DirEntry(bucket, cp, recursive, now))
      && DistinctNames(items)
      && seen' == seen + Names(items)
      && (forall cp :: cp in cps && DirName(cp) != "" ==> DirName(cp) in seen')
  {
    var it := DirEntry(bucket, cps[0], recursive, now);
    var items := [it] + rest;
    assert forall cp :: cp in cps[1..] ==> cp in cps;
    assert forall cp :: cp in cps ==> cp == cps[0] || cp in cps[1..];
    assert forall j :: 0 < j < |items| ==> items[j] == rest[j - 1];
    NamesAppend([it], rest);
    assert Names([it]) == {it.name};
  }

  /** The step of `DirEntries` that skips the first common prefix. */
  lemma DirEntriesSkip(bucket: string, cps: seq<string>, recursive: Lister, now: int, seen: set<string>,
                       rest: seq<Item>, seen': set<string>)
    requires cps != [] && (DirName(cps[0]) == "" || DirName(cps[0]) in seen)
    requires forall it :: it in rest ==>
      && it.kind == Dir && it.name != "" && it.name !in seen
      && exists cp :: cp in cps[1..] && it == DirEntry(bucket, cp, recursive, now)
    requires seen' == seen + Names(rest)
    requires forall cp :: cp in cps[1..] && DirName(cp) != "" ==> DirName(cp) in seen'
    ensures forall it :: it in rest ==>
      exists cp :: cp in cps && it == DirEntry(bucket, cp, recursive, now)
    ensures forall cp :: cp in cps && DirName(cp) != "" ==> DirName(cp) in seen'
  {
    assert forall cp :: cp in cps[1..] ==> cp in cps;
    assert forall cp :: cp in cps ==> cp == cps[0] || cp in cps[1..];
  }

  /** A single common prefix gives a directory row exactly when its name is
      non-empty and not yet shown, and that name is then seen. */
  lemma DirEntriesSingle(bucket: string, cp: string, recursive: Lister, now: int, seen: set<string>)
    ensures DirEntries(bucket, [cp], recursive, now, seen)
         == if DirName(cp) != "" && DirName(cp) !in seen
            then ([DirEntry(bucket, cp, recursive, now)], seen + {DirName(cp)})
            else ([], seen)
  {
    DirEntriesUnfold(bucket, [cp], recursive, now, seen);
    assert [cp][1..] == [];
    assert [DirEntry(bucket, cp, recursive, now)] + [] == [DirEntry(bucket, cp, recursive, now)];
  }

  /** The directory rows of consecutive common prefixes are the rows of the first
      ones followed by those of the rest, which skip every name seen so far; so
      rows come in common-prefix order. */
  lemma {:induction false} DirEntriesAppend(bucket: string, a: seq<string>, c: seq<string>,
                                            recursive: Lister, now: int, seen: set<string>)
    ensures var first := DirEntries(bucket, a, recursive, now, seen);
      var later := DirEntries(bucket, c, recursive, now, first.1);
      DirEntries(bucket, a + c, recursive, now, seen) == (first.0 + later.0, later.1)
    decreases |a|, 1
  {
    if a == [] {
      assert a + c == c;
      var first := DirEntries(bucket, a, recursive, now, seen);
      assert first == ([], seen);
      assert first.0 + DirEntries(bucket, c, recursive, now, seen).0 == DirEntries(bucket, c, recursive, now, seen).0;
    } else {
      DirEntriesAppendStep(bucket, a, c, recursive, now, seen);
    }
  }

  /** `DirEntriesAppend` when `a` has a first common prefix. */
  lemma {:induction false} DirEntriesAppendStep(bucket: string, a: seq<string>, c: seq<string>,
                                                recursive: Lister, now: int, seen: set<string>)
    requires a != []
    ensures var first := DirEntries(bucket, a, recursive, now, seen);
      var later := DirEntries(bucket, c, recursive, now, first.1);
      DirEntries(bucket, a + c, recursive, now, seen) == (first.0 + later.0, later.1)
    decreases |a|, 0
  {
    var name := DirName(a[0]);
    var take := name != "" && name !in seen;
    var seen1 := if take then seen + {name} else seen;
    var x := DirEntries(bucket, a[1..], recursive, now, seen1);
    var y := DirEntries(bucket, c, recursive, now, x.1);
    assert (a + c)[0] == a[0];
    assert (a + c)[1..] == a[1..] + c;
    DirEntriesUnfold(bucket, a, recursive, now, seen);
    DirEntriesUnfold(bucket, a + c, recursive, now, seen);
    DirEntriesAppend(bucket, a[1..], c, recursive, now, seen1);
    if take {
      Regroup(DirEntries(bucket, a + c, recursive, now, seen).0, DirEntries(bucket, a, recursive, now, seen).0,
              DirEntries(bucket, a[1..] + c, recursive, now, seen1).0, x.0, y.0, [DirEntry(bucket, a[0], recursive, now)]);
    }
  }

  /** One unfolding of `DirEntries`. */
  lemma DirEntriesUnfold(bucket: string, cps: seq<string>, recursive: Lister, now: int, seen: set<string>)
    requires cps != []
    ensures var name := DirName(cps[0]);
      DirEntries(bucket, cps, recursive, now, seen)
      == if name != "" && name !in seen then
           var rest := DirEntries(bucket, cps[1..], recursive, now, seen + {name});
           ([DirEntry(bucket, cps[0], recursive, now)] + rest.0, rest.1)
         else DirEntries(bucket, cps[1..], recursive, now, seen)
  {
  }

  /** The rows derived from the pages: for each page in order, its new directory
      rows, then its file rows. */
  function Entries(bucket: string, prefix: string, pages: seq<Page>, recursive: Lister, now: int, seen: set<string>)
    : (r: seq<Item>)
    ensures forall it :: it in r ==> it.kind == Dir || it.kind == File
    ensures forall it :: it in r && it.kind == File ==>
      exists o :: o in AllObjects(pages) && Listed(prefix, o) && it == FileEntry(prefix, o)
    ensures forall o :: o in AllObjects(pages) && Listed(prefix, o) ==> FileEntry(prefix, o) in r
    ensures forall it :: it in r && it.kind == Dir ==>
      && it.name != "" && it.name !in seen
      && exists cp :: cp in AllPrefixes(pages) && it == DirEntry(bucket, cp, recursive, now)
    ensures DistinctNames(Dirs(r))
    ensures forall cp :: cp in AllPrefixes(pages) && DirName(cp) != "" ==> DirName(cp) in seen + Names(Dirs(r))
    decreases |pages|
  {
    if pages == [] then []
    else
      var (dirs, seen') := DirEntries(bucket, pages[0].commonPrefixes, recursive, now, seen);
      var files := FileEntries(prefix, pages[0].contents);
      var rest := Entries(bucket, prefix, pages[1..], recursive, now, seen');
      EntriesStep(bucket, prefix, pages, recursive, now, seen, dirs, seen', files, rest);
      dirs + files + rest
  }

  /** The inductive step of `Entries`, kept apart to keep each proof small. */
  lemma EntriesStep(bucket: string, prefix: string, pages: seq<Page>, recursive: Lister, now: int,
                    seen: set<string>, dirs: seq<Item>, seen': set<string>, files: seq<Item>, rest: seq<Item>)
    requires pages != []
    requires forall it :: it in dirs ==>
      && it.kind == Dir && it.name != "" && it.name !in seen
      && exists cp :: cp in pages[0].commonPrefixes && it == DirEntry(bucket, cp, recursive, now)
    requires DistinctNames(dirs)
    requires seen' == seen + Names(dirs)
    requires forall cp :: cp in pages[0].commonPrefixes && DirName(cp) != "" ==> DirName(cp) in seen'
    requires forall it :: it in files ==> it.kind == File
    requires forall it :: it in files ==> exists o :: o in pages[0].contents && Listed(prefix, o) && it == FileEntry(prefix, o)
    requires forall o :: o in pages[0].contents && Listed(prefix, o) ==> FileEntry(prefix, o) in files
    requires forall it :: it in rest ==> it.kind == Dir || it.kind == File
    requires forall it :: it in rest && it.kind == File ==>
      exists o :: o in AllObjects(pages[1..]) && Listed(prefix, o) && it == FileEntry(prefix, o)
    requires forall o :: o in AllObjects(pages[1..]) && Listed(prefix, o) ==> FileEntry(prefix, o) in rest
    requires forall it :: it in rest && it.kind == Dir ==>
      && it.name != "" && it.name !in seen'
      && exists cp :: cp in AllPrefixes(pages[1..]) && it == DirEntry(bucket, cp, recursive, now)
    requires DistinctNames(Dirs(rest))
    requires forall cp :: cp in AllPrefixes(pages[1..]) && DirName(cp) != "" ==> DirName(cp) in seen' + Names(Dirs(rest))
    ensures var r := dirs + files + rest;
      && (forall it :: it in r ==> it.kind == Dir || it.kind == File)
      && (forall it :: it in r && it.kind == File ==>
           exists o :: o in AllObjects(pages) && Listed(prefix, o) && it == FileEntry(prefix, o))
      && (forall o :: o in AllObjects(pages) && Listed(prefix, o) ==> FileEntry(prefix, o) in r)
      && (forall it :: it in r && it.kind == Dir ==>
           && it.name != "" && it.name !in seen
           && exists cp :: cp in AllPrefixes(pages) && it == DirEntry(bucket, cp, recursive, now))
      && DistinctNames(Dirs(r))
      && (forall cp :: cp in AllPrefixes(pages) && DirName(cp) != "" ==> DirName(cp) in seen + Names(Dirs(r)))
  {
    var r := dirs + files + rest;
    assert AllObjects(pages) == pages[0].contents + AllObjects(pages[1..]);
    assert AllPrefixes(pages) == pages[0].commonPrefixes + AllPrefixes(pages[1..]);
    DirsAppend(dirs + files, rest);
    DirsAppend(dirs, files);
    DirsOfDirs(dirs);
    DirsOfFiles(files);
    assert Dirs(r) == dirs + Dirs(rest);
    NamesAppend(dirs, Dirs(rest));
    DistinctAppend(dirs, Dirs(rest), seen');
  }

  lemma {:induction false} DirsAppend(a: seq<Item>, b: seq<Item>)
    ensures Dirs(a + b) == Dirs(a) + Dirs(b)
    decreases |a|
  {
    if a == [] {
      assert a + b == b;
    } else {
      assert (a + b)[0] == a[0];
      assert (a + b)[1..] == a[1..] + b;
      DirsAppend(a[1..], b);
    }
  }

  lemma {:induction false} DirsOfDirs(a: seq<Item>)
    requires forall it :: it in a ==> it.kind == Dir
    ensures Dirs(a) == a
    decreases |a|
  {
    if a != [] {
      assert forall it :: it in a[1..] ==> it in a;
      DirsOfDirs(a[1..]);
    }
  }

  lemma {:induction false} DirsOfFiles(a: seq<Item>)
    requires forall it :: it in a ==> it.kind == File
    ensures Dirs(a) == []
    decreases |a|
  {
    if a != [] {
      assert forall it :: it in a[1..] ==> it in a;
      DirsOfFiles(a[1..]);
    }
  }

  lemma NamesAppend(a: seq<Item>, b: seq<Item>)
    ensures Names(a + b) == Names(a) + Names(b)
  {
    assert forall it :: it in a + b <==> it in a || it in b;
  }

  lemma DistinctAppend(a: seq<Item>, b: seq<Item>, seen: set<string>)
    requires DistinctNames(a) && DistinctNames(b)
    requires Names(a) <= seen
    requires forall it :: it in b ==> it.name !in seen
    ensures DistinctNames(a + b)
  {
    var r := a + b;
    forall i, j | 0 <= i < j < |r|
      ensures r[i].name != r[j].name
    {
      if j >= |a| {
        assert r[j] == b[j - |a|];
        assert r[j] in b;
        if i < |a| {
          assert r[i] in a;
        } else {
          assert r[i] == b[i - |a|];
        }
      }
    }
  }

  /** `list_objects`: a `..` row first whenever the prefix is non-empty, then the
      rows derived from the pages. */
  function ListObjects(bucket: string, prefix: string, pages: seq<Page>, recursive: Lister, now: int)
    : (r: seq<Item>)
    ensures prefix != "" ==> |r| >= 1 && r[0] == ParentEntry(now)
    ensures var h := if prefix == "" then 0 else 1;
      |r| >= h && r[h..] == Entries(bucket, prefix, pages, recursive, now, {})
  {
    var e := Entries(bucket, prefix, pages, recursive, now, {});
    if prefix != "" then
      assert ([ParentEntry(now)] + e)[1..] == e;
      [ParentEntry(now)] + e
    else e
  }

  /** When every common prefix names a new, distinct, non-empty directory, each
      yields its own row, in order. */
  lemma {:induction false} DirEntriesAllNew(bucket: string, cps: seq<string>, recursive: Lister, now: int, seen: set<string>)
    requires forall i :: 0 <= i < |cps| ==> DirName(cps[i]) != "" && DirName(cps[i]) !in seen
    requires forall i, j :: 0 <= i < j < |cps| ==> DirName(cps[i]) != DirName(cps[j])
    ensures var r := DirEntries(bucket, cps, recursive, now, seen).0;
      |r| == |cps| && forall i :: 0 <= i < |cps| ==> r[i] == DirEntry(bucket, cps[i], recursive, now)
    decreases |cps|
  {
    if cps != [] {
      var name := DirName(cps[0]);
      var tail := cps[1..];
      assert forall i :: 0 <= i < |tail| ==> tail[i] == cps[i + 1];
      DirEntriesAllNew(bucket, tail, recursive, now, seen + {name});
      var rest := DirEntries(bucket, tail, recursive, now, seen + {name}).0;
      var r := DirEntries(bucket, cps, recursive, now, seen).0;
      assert r == [DirEntry(bucket, cps[0], recursive, now)] + rest;
    }
  }

  /** Within a page, the directory rows come first, then the file rows. */
  lemma EntriesOfOnePage(bucket: string, prefix: string, page: Page, recursive: Lister, now: int, seen: set<string>)
    ensures Entries(bucket, prefix, [page], recursive, now, seen)
         == DirEntries(bucket, page.commonPrefixes, recursive, now, seen).0 + FileEntries(prefix, page.contents)
  {
    assert [page][1..] == [];
    var d := DirEntries(bucket, page.commonPrefixes, recursive, now, seen);
    assert Entries(bucket, prefix, [page], recursive, now, seen)
        == d.0 + FileEntries(prefix, page.contents) + Entries(bucket, prefix, [], recursive, now, d.1);
  }

  /** A single object gives one file row exactly when it is listed. */
  lemma FileEntriesSingle(prefix: string, o: Obj)
    ensures FileEntries(prefix, [o]) == if Listed(prefix, o) then [FileEntry(prefix, o)] else []
  {
    assert [o][1..] == [];
  }

  /** The file rows of consecutive objects are the file rows of each part, in order. */
  lemma {:induction false} FileEntriesAppend(prefix: string, xs: seq<Obj>, ys: seq<Obj>)
    ensures FileEntries(prefix, xs + ys) == FileEntries(prefix, xs) + FileEntries(prefix, ys)
    decreases |xs|
  {
    if xs == [] {
      assert xs + ys == ys;
    } else {
      assert (xs + ys)[0] == xs[0];
      assert (xs + ys)[1..] == xs[1..] + ys;
      FileEntriesAppend(prefix, xs[1..], ys);
    }
  }

  /** The rows of consecutive pages are the rows of the first pages followed by
      the rows of the later ones, which skip every directory name shown so far. */
  lemma {:induction false} EntriesAppend(bucket: string, prefix: string, a: seq<Page>, b: seq<Page>,
                                         recursive: Lister, now: int, seen: set<string>)
    ensures var first := Entries(bucket, prefix, a, recursive, now, seen);
      Entries(bucket, prefix, a + b, recursive, now, seen)
      == first + Entries(bucket, prefix, b, recursive, now, seen + Names(Dirs(first)))
    decreases |a|, 1
  {
    if a == [] {
      var first := Entries(bucket, prefix, a, recursive, now, seen);
      assert first == [];
      assert Dirs(first) == [];
      assert Names(Dirs(first)) == {};
      assert seen + Names(Dirs(first)) == seen;
      assert a + b == b;
    } else {
      EntriesAppendStep(bucket, prefix, a, b, recursive, now, seen);
    }
  }

  /** `EntriesAppend` when `a` has a first page. */
  lemma {:induction false} EntriesAppendStep(bucket: string, prefix: string, a: seq<Page>, b: seq<Page>,
                                             recursive: Lister, now: int, seen: set<string>)
    requires a != []
    ensures var first := Entries(bucket, prefix, a, recursive, now, seen);
      Entries(bucket, prefix, a + b, recursive, now, seen)
      == first + Entries(bucket, prefix, b, recursive, now, seen + Names(Dirs(first)))
    decreases |a|, 0
  {
    var d := DirEntries(bucket, a[0].commonPrefixes, recursive, now, seen);
    var files := FileEntries(prefix, a[0].contents);
    var rest := Entries(bucket, prefix, a[1..], recursive, now, d.1);
    assert (a + b)[0] == a[0];
    assert (a + b)[1..] == a[1..] + b;
    EntriesUnfold(bucket, prefix, a, recursive, now, seen);
    EntriesUnfold(bucket, prefix, a + b, recursive, now, seen);
    EntriesAppend(bucket, prefix, a[1..], b, recursive, now, d.1);
    SeenAfterPage(seen, d.0, d.1, files, rest);
    Regroup(Entries(bucket, prefix, a + b, recursive, now, seen), Entries(bucket, prefix, a, recursive, now, seen),
            Entries(bucket, prefix, a[1..] + b, recursive, now, d.1), rest,
            Entries(bucket, prefix, b, recursive, now, d.1 + Names(Dirs(rest))), d.0 + files);
  }

  /** Regrouping rows that share a common front. */
  lemma Regroup(whole: seq<Item>, first: seq<Item>, tail: seq<Item>, rest: seq<Item>, later: seq<Item>, front: seq<Item>)
    requires whole == front + tail && first == front + rest && tail == rest + later
    ensures whole == first + later
  {
  }

  /** One unfolding of `Entries`. */
  lemma EntriesUnfold(bucket: string, prefix: string, pages: seq<Page>, recursive: Lister, now: int, seen: set<string>)
    requires pages != []
    ensures var d := DirEntries(bucket, pages[0].commonPrefixes, recursive, now, seen);
      Entries(bucket, prefix, pages, recursive, now, seen)
      == d.0 + FileEntries(prefix, pages[0].contents) + Entries(bucket, prefix, pages[1..], recursive, now, d.1)
  {
  }

  /** The names seen after one page's rows and the rows that follow it. */
  lemma SeenAfterPage(seen: set<string>, dirs: seq<Item>, seen': set<string>, files: seq<Item>, rest: seq<Item>)
    requires forall it :: it in dirs ==> it.kind == Dir
    requires forall it :: it in files ==> it.kind == File
    requires seen' == seen + Names(dirs)
    ensures seen + Names(Dirs(dirs + files + rest)) == seen' + Names(Dirs(rest))
  {
    DirsAppend(dirs + files, rest);
    DirsAppend(dirs, files);
    DirsOfDirs(dirs);
    DirsOfFiles(files);
    assert dirs + [] == dirs;
    NamesAppend(dirs, Dirs(rest));
  }

  // ===== delete_object / _delete_directory =====

  /** The keys of a sequence of batches, in order. */
  function Flatten(batches: seq<seq<string>>): seq<string>
  {
    if batches == [] then [] else batches[0] + Flatten(batches[1..])
  }

  /** Batches as `_delete_directory` flushes them: none empty, none above the
      limit, and every one but the last exactly at the limit. */
  predicate WellBatched(batches: seq<seq<string>>) {
    && (forall i :: 0 <= i < |batches| ==> 1 <= |batches[i]| <= BatchLimit)
    && (forall i :: 0 <= i < |batches| - 1 ==> |batches[i]| == BatchLimit)
  }

  /** `keys` cut into consecutive batches of `BatchLimit`, the last one possibly shorter. */
  function Chunks(keys: seq<string>): seq<seq<string>>
    decreases |keys|
  {
    if |keys| == 0 then []
    else if |keys| <= BatchLimit then [keys]
    else [keys[..BatchLimit]] + Chunks(keys[BatchLimit..])
  }

  function BatchCalls(bucket: string, batches: seq<seq<string>>): (calls: seq<DeleteCall>)
    ensures |calls| == |batches|
    ensures forall i :: 0 <= i < |calls| ==> calls[i] == DeleteMany(bucket, batches[i])
  {
    seq(|batches|, i requires 0 <= i < |batches| => DeleteMany(bucket, batches[i]))
  }

  /** The keys of the batched delete calls in a trace, in order. */
  function DeletedKeys(calls: seq<DeleteCall>): seq<string>
  {
    if calls == [] then []
    else (if calls[0].DeleteMany? then calls[0].keys else [calls[0].key]) + DeletedKeys(calls[1..])
  }

  /** `_delete_directory`: every key listed under the prefix, in batched calls. */
  function DeleteDirectory(bucket: string, pages: seq<Page>): (calls: seq<DeleteCall>)
    ensures forall c :: c in calls ==> c.DeleteMany? && c.bucket == bucket
    ensures DeletedKeys(calls) == Keys(AllObjects(pages))
  {
    var keys := Keys(AllObjects(pages));
    ChunksCorrect(keys);
    DeletedKeysOfBatches(bucket, Chunks(keys));
    BatchCalls(bucket, Chunks(keys))
  }

  /** `delete_object`: a key ending in '/' is a directory and is deleted by prefix;
      any other key gets exactly one single-object delete. */
  function DeleteObject(bucket: string, key: string, recursive: Lister): (calls: seq<DeleteCall>)
    ensures !EndsWithSlash(key) ==> calls == [DeleteOne(bucket, key)]
    ensures EndsWithSlash(key) ==>
      && (forall c :: c in calls ==> c.DeleteMany? && c.bucket == bucket)
      && DeletedKeys(calls) == Keys(AllObjects(recursive(bucket, key)))
  {
    if EndsWithSlash(key) then
      DeleteDirectoryDeletesAll(bucket, recursive(bucket, key));
      DeleteDirectory(bucket, recursive(bucket, key))
    else [DeleteOne(bucket, key)]
  }

  lemma {:induction false} FlattenAppend(a: seq<seq<string>>, b: seq<string>)
    ensures Flatten(a + [b]) == Flatten(a) + b
    decreases |a|
  {
    if a == [] {
      assert a + [b] == [b];
      assert Flatten([b]) == b + Flatten([]);
    } else {
      assert (a + [b])[0] == a[0];
      assert (a + [b])[1..] == a[1..] + [b];
      FlattenAppend(a[1..], b);
    }
  }

  lemma {:induction false} DeletedKeysOfBatches(bucket: string, batches: seq<seq<string>>)
    ensures DeletedKeys(BatchCalls(bucket, batches)) == Flatten(batches)
    decreases |batches|
  {
    if batches != [] {
      assert BatchCalls(bucket, batches)[1..] == BatchCalls(bucket, batches[1..]);
      DeletedKeysOfBatches(bucket, batches[1..]);
    }
  }

  /** Chunking loses, duplicates and reorders nothing, and batches as the loop does. */
  lemma {:induction false} ChunksCorrect(keys: seq<string>)
    ensures Flatten(Chunks(keys)) == keys
    ensures WellBatched(Chunks(keys))
    ensures |Chunks(keys)| == (|keys| + BatchLimit - 1) / BatchLimit
    decreases |keys|
  {
    if |keys| == 0 {
    } else if |keys| <= BatchLimit {
      assert Flatten([keys]) == keys + Flatten([]);
    } else {
      var tail := keys[BatchLimit..];
      ChunksCorrect(tail);
      var r := [keys[..BatchLimit]] + Chunks(tail);
      assert r[1..] == Chunks(tail);
      assert keys == keys[..BatchLimit] + tail;
      assert forall i :: 0 < i < |r| ==> r[i] == Chunks(tail)[i - 1];
    }
  }

  /** Any well-batched split of `keys` is the one `Chunks` computes. */
  lemma {:induction false} ChunksUnique(batches: seq<seq<string>>, keys: seq<string>)
    requires Flatten(batches) == keys && WellBatched(batches)
    ensures batches == Chunks(keys)
    decreases |batches|
  {
    if batches == [] {
    } else if |batches| == 1 {
      var b := batches[0];
      assert batches[1..] == [];
      assert Flatten(batches) == b + Flatten(batches[1..]);
      assert b + [] == b;
      assert keys == b;
      assert batches == [b];
      assert 1 <= |b| <= BatchLimit;
    } else {
      var b := batches[0];
      var rest := batches[1..];
      assert |b| == BatchLimit;
      assert keys == b + Flatten(rest);
      assert Flatten(rest) != [] by {
        assert |rest[0]| >= 1;
        assert Flatten(rest) == rest[0] + Flatten(rest[1..]);
      }
      assert keys[..BatchLimit] == b;
      assert keys[BatchLimit..] == Flatten(rest);
      assert WellBatched(rest) by {
        assert forall i :: 0 <= i < |rest| ==> rest[i] == batches[i + 1];
      }
      ChunksUnique(rest, Flatten(rest));
    }
  }

  /** `_delete_directory` sends each listed key exactly once, in listing order, in
      well-formed batches on the given bucket, using as few calls as possible. */
  lemma DeleteDirectoryDeletesAll(bucket: string, pages: seq<Page>)
    ensures var calls := DeleteDirectory(bucket, pages);
      && (forall c :: c in calls ==> c.DeleteMany? && c.bucket == bucket)
      && DeletedKeys(calls) == Keys(AllObjects(pages))
      && (forall i :: 0 <= i < |calls| ==> 1 <= |calls[i].keys| <= BatchLimit)
      && (forall i :: 0 <= i < |calls| - 1 ==> |calls[i].keys| == BatchLimit)
      && |calls| == (|AllObjects(pages)| + BatchLimit - 1) / BatchLimit
  {
    var keys := Keys(AllObjects(pages));
    ChunksCorrect(keys);
    DeletedKeysOfBatches(bucket, Chunks(keys));
  }

  /** 2500 listed keys are deleted in three calls of 1000, 1000 and 500 keys. */
  lemma DeleteDirectory2500(bucket: string, pages: seq<Page>)
    requires |AllObjects(pages)| == 2500
    ensures var calls := DeleteDirectory(bucket, pages);
      |calls| == 3 && |calls[0].keys| == 1000 && |calls[1].keys| == 1000 && |calls[2].keys| == 500
  {
    var keys := Keys(AllObjects(pages));
    var tail := keys[BatchLimit..];
    assert Chunks(keys) == [keys[..BatchLimit]] + Chunks(tail);
    assert Chunks(tail) == [tail[..BatchLimit]] + Chunks(tail[BatchLimit..]);
    assert Chunks(tail[BatchLimit..]) == [tail[BatchLimit..]];
  }

  lemma KeysSnoc(before: seq<Obj>, contents: seq<Obj>, c: nat)
    requires c < |contents|
    ensures Keys(before + contents[..c + 1]) == Keys(before + contents[..c]) + [contents[c].key]
  {
    assert before + contents[..c + 1] == (before + contents[..c]) + [contents[c]];
    KeysAppend(before + contents[..c], [contents[c]]);
  }

  lemma BatchCallsSnoc(bucket: string, batches: seq<seq<string>>, b: seq<string>)
    ensures BatchCalls(bucket, batches + [b]) == BatchCalls(bucket, batches) + [DeleteMany(bucket, b)]
  {
  }

  /** `_delete_directory` as written: keys are collected page by page and a batch is
      sent whenever 1000 have accumulated, then the non-empty remainder. */
  method DeleteDirectoryLoop(bucket: string, pages: seq<Page>) returns (calls: seq<DeleteCall>)
    ensures calls == DeleteDirectory(bucket, pages)
  {
    calls := [];
    var pending: seq<string> := [];
    ghost var batches: seq<seq<string>> := [];
    for p := 0 to |pages|
      invariant calls == BatchCalls(bucket, batches)
      invariant Flatten(batches) + pending == Keys(AllObjects(pages[..p]))
      invariant forall i :: 0 <= i < |batches| ==> |batches[i]| == BatchLimit
      invariant |pending| < BatchLimit
    {
      var contents := pages[p].contents;
      ghost var before := AllObjects(pages[..p]);
      for c := 0 to |contents|
        invariant calls == BatchCalls(bucket, batches)
        invariant Flatten(batches) + pending == Keys(before + contents[..c])
        invariant forall i :: 0 <= i < |batches| ==> |batches[i]| == BatchLimit
        invariant |pending| < BatchLimit
      {
        KeysSnoc(before, contents, c);
        pending := pending + [contents[c].key];
        if |pending| >= BatchLimit {
          FlattenAppend(batches, pending);
          BatchCallsSnoc(bucket, batches, pending);
          calls := calls + [DeleteMany(bucket, pending)];
          batches := batches + [pending];
          pending := [];
        }
      }
      assert contents[..|contents|] == contents;
      AllObjectsSnoc(pages, p);
    }
    assert pages[..|pages|] == pages;
    var keys := Keys(AllObjects(pages));
    if pending != [] {
      FlattenAppend(batches, pending);
      BatchCallsSnoc(bucket, batches, pending);
      calls := calls + [DeleteMany(bucket, pending)];
      batches := batches + [pending];
    }
    ChunksUnique(batches, keys);
  }

  // ===== scenarios =====

  /** An empty ListBuckets response gives no rows; two entries give two bucket rows. */
  lemma ListBucketsScenarios(now: int, t: int)
    ensures ListBuckets([], now) == []
    ensures var r := ListBuckets([BucketEntry("test-bucket-1", Some(t)), BucketEntry("test-bucket-2", Some(t))], now);
      |r| == 2 && r[0] == Item("test-bucket-1", Bucket, 0, t) && r[1].name == "test-bucket-2"
  {
  }

  lemma RootFile(o: Obj)
    requires o.key != "" && Slash !in o.key
    ensures Listed("", o) && FileEntry("", o) == Item(o.key, File, o.size, o.lastModified)
  {
    assert Drop(o.key, 0) == o.key;
  }

  lemma RootFiles(t: int)
    ensures FileEntries("", [Obj("file1.txt", 1024, t), Obj("file2.txt", 2048, t)])
         == [Item("file1.txt", File, 1024, t), Item("file2.txt", File, 2048, t)]
  {
    var o1, o2 := Obj("file1.txt", 1024, t), Obj("file2.txt", 2048, t);
    assert Slash !in o1.key && Slash !in o2.key;
    RootFile(o1);
    RootFile(o2);
    assert [o1, o2][1..] == [o2] && [o2][1..] == [];
    assert FileEntries("", [o2]) == [FileEntry("", o2)] + FileEntries("", []);
  }

  /** The listing at the root of a bucket: two common prefixes and two files give
      two directory rows and then two file rows. */
  lemma ListObjectsRootExample(recursive: Lister, now: int, t: int)
    ensures var page := Page(["folder1/", "folder2/"], [Obj("file1.txt", 1024, t), Obj("file2.txt", 2048, t)]);
      var r := ListObjects("test-bucket", "", [page], recursive, now);
      && |r| == 4
      && r[0].name == "folder1" && r[0].kind == Dir
      && r[1].name == "folder2" && r[1].kind == Dir
      && r[2] == Item("file1.txt", File, 1024, t)
      && r[3] == Item("file2.txt", File, 2048, t)
  {
    var page := Page(["folder1/", "folder2/"], [Obj("file1.txt", 1024, t), Obj("file2.txt", 2048, t)]);
    var cps := page.commonPrefixes;
    assert cps[0] == "" + "folder1" + [Slash];
    assert cps[1] == "" + "folder2" + [Slash];
    DirNameOfChild("", "folder1");
    DirNameOfChild("", "folder2");
    assert "folder2"[6] != "folder1"[6];
    DirEntriesAllNew("test-bucket", cps, recursive, now, {});
    RootFiles(t);
    EntriesOfOnePage("test-bucket", "", page, recursive, now, {});
  }
}

=== FILE: sorting.dfy ===
/** The navigator's `_sort_items`: Python's stable `list.sort(key=..., reverse=...)`
    over the displayed rows, specified as permutation + ordered + stable and
    implemented as an insertion sort. */
module Sorting {
  import opened Strings
  import opened Items

  /** The column the rows are sorted by. */
  datatype Field = Name | Size | LastModified

  /** A sort key. One field only ever yields one kind of key; the order between
      the two kinds is fixed arbitrarily so that `KeyLess` is total. */
  datatype SortKey = Num(n: int) | Text(t: string)

  /** `get_sort_key`: lower-cased name, size, or modification time. Only the
      name field gives text keys, and those ignore letter case. */
  function Key(f: Field, it: Item): (k: SortKey)
    ensures k.Text? <==> f == Name
    ensures f == Size ==> k.n == it.size
    ensures f == LastModified ==> k.n == it.lastModified
  {
    match f
    case Name => Text(Lower(it.name))
    case Size => Num(it.size)
    case LastModified => Num(it.lastModified)
  }

  /** Rows whose names differ only in letter case get the same name key, and that
      key holds no capital letter. */
  lemma NameKeyIgnoresCase(a: Item, b: Item)
    requires |a.name| == |b.name|
    requires forall i :: 0 <= i < |a.name| ==> LowerChar(a.name[i]) == LowerChar(b.name[i])
    ensures Key(Name, a) == Key(Name, b)
    ensures forall i :: 0 <= i < |Key(Name, a).t| ==> !('A' <= Key(Name, a).t[i] <= 'Z')
  {
    assert Lower(a.name) == Lower(b.name);
    LowerCases(a.name);
  }

  predicate KeyLess(a: SortKey, b: SortKey) {
    match (a, b)
    case (Num(x), Num(y)) => x < y
    case (Text(x), Text(y)) => TextLess(x, y)
    case (Num(_), Text(_)) => true
    case (Text(_), Num(_)) => false
  }

  /** `a` must be placed before `b`. With `reverse` the key order is flipped, but
      rows with equal keys still never precede each other, which is what keeps
      Python's reversed sort stable. */
  predicate Precedes(f: Field, reverse: bool, a: Item, b: Item) {
    if reverse then KeyLess(Key(f, b), Key(f, a)) else KeyLess(Key(f, a), Key(f, b))
  }

  /** No row is followed by a row that should precede it. */
  predicate Sorted(f: Field, reverse: bool, s: seq<Item>) {
    forall i, j :: 0 <= i < j < |s| ==> !Precedes(f, reverse, s[j], s[i])
  }

  /** The rows of `s` whose key is `k`, in their order in `s`. */
  function WithKey(f: Field, s: seq<Item>, k: SortKey): seq<Item>
  {
    if s == [] then []
    else (if Key(f, s[0]) == k then [s[0]] else []) + WithKey(f, s[1..], k)
  }

  /** Stability: every class of equal keys keeps its relative order. */
  ghost predicate SameKeyClasses(f: Field, a: seq<Item>, b: seq<Item>) {
    forall k :: WithKey(f, a, k) == WithKey(f, b, k)
  }

  /** Puts `x` after every row of the sorted `s` that it does not precede. */
  function Insert(f: Field, reverse: bool, x: Item, s: seq<Item>): seq<Item>
  {
    if s == [] then [x]
    else if Precedes(f, reverse, x, s[0]) then [x] + s
    else [s[0]] + Insert(f, reverse, x, s[1..])
  }

  /** The rows of `s` in sort order; equal keys keep their order in `s`. */
  function Sort(f: Field, reverse: bool, s: seq<Item>): (r: seq<Item>)
    ensures multiset(r) == multiset(s)
    ensures Sorted(f, reverse, r)
    ensures SameKeyClasses(f, r, s)
    decreases |s|
  {
    if s == [] then []
    else
      var init, x := s[..|s| - 1], s[|s| - 1];
      var sorted := Sort(f, reverse, init);
      InsertStep(f, reverse, init, x, sorted);
      assert s == init + [x];
      Insert(f, reverse, x, sorted)
  }

  // ----- the key order is a strict total order -----

  lemma KeyLessIrreflexive(a: SortKey)
    ensures !KeyLess(a, a)
  {
    if a.Text? {
      TextLessIrreflexive(a.t);
    }
  }

  lemma KeyLessTransitive(a: SortKey, b: SortKey, c: SortKey)
    requires KeyLess(a, b) && KeyLess(b, c)
    ensures KeyLess(a, c)
  {
    if a.Text? && b.Text? && c.Text? {
      TextLessTransitive(a.t, b.t, c.t);
    }
  }

  lemma KeyLessTotal(a: SortKey, b: SortKey)
    requires a != b
    ensures KeyLess(a, b) || KeyLess(b, a)
  {
    if a.Text? && b.Text? {
      TextLessTotal(a.t, b.t);
    }
  }

  /** Rows with equal keys never precede one another. */
  lemma PrecedesDistinctKeys(f: Field, reverse: bool, a: Item, b: Item)
    requires Precedes(f, reverse, a, b)
    ensures Key(f, a) != Key(f, b)
  {
    KeyLessIrreflexive(Key(f, a));
  }

  lemma PrecedesAsymmetric(f: Field, reverse: bool, a: Item, b: Item)
    requires Precedes(f, reverse, a, b)
    ensures !Precedes(f, reverse, b, a)
  {
    KeyLessIrreflexive(Key(f, a));
    if Precedes(f, reverse, b, a) {
      KeyLessTransitive(Key(f, a), Key(f, b), Key(f, a));
    }
  }

  /** If `a` precedes `b` and `c` does not precede `b`, then `a` precedes `c`. */
  lemma PrecedesThenNotBefore(f: Field, reverse: bool, a: Item, b: Item, c: Item)
    requires Precedes(f, reverse, a, b) && !Precedes(f, reverse, c, b)
    ensures Precedes(f, reverse, a, c)
  {
    var ka, kb, kc := Key(f, a), Key(f, b), Key(f, c);
    if kc != kb {
      KeyLessTotal(kb, kc);
      if reverse {
        KeyLessTransitive(kc, kb, ka);
      } else {
        KeyLessTransitive(ka, kb, kc);
      }
    }
  }

  // ----- insertion -----

  lemma {:induction false} InsertPermutes(f: Field, reverse: bool, x: Item, s: seq<Item>)
    ensures multiset(Insert(f, reverse, x, s)) == multiset(s) + multiset{x}
    decreases |s|
  {
    if s != [] && !Precedes(f, reverse, x, s[0]) {
      InsertPermutes(f, reverse, x, s[1..]);
      assert s == [s[0]] + s[1..];
    }
  }

  /** In a sorted sequence that `x` precedes at its head, `x` precedes every row. */
  lemma PrecedesAll(f: Field, reverse: bool, x: Item, s: seq<Item>)
    requires Sorted(f, reverse, s) && s != [] && Precedes(f, reverse, x, s[0])
    ensures forall j :: 0 <= j < |s| ==> Precedes(f, reverse, x, s[j])
  {
    forall j | 0 < j < |s|
      ensures Precedes(f, reverse, x, s[j])
    {
      PrecedesThenNotBefore(f, reverse, x, s[0], s[j]);
    }
  }

  /** No row of `s` precedes `b`. */
  predicate NoneBefore(f: Field, reverse: bool, s: seq<Item>, b: Item) {
    forall j :: 0 <= j < |s| ==> !Precedes(f, reverse, s[j], b)
  }

  lemma {:induction false} InsertNoneBefore(f: Field, reverse: bool, x: Item, s: seq<Item>, b: Item)
    requires NoneBefore(f, reverse, s, b) && !Precedes(f, reverse, x, b)
    ensures NoneBefore(f, reverse, Insert(f, reverse, x, s), b)
    decreases |s|
  {
    if s != [] && !Precedes(f, reverse, x, s[0]) {
      InsertNoneBefore(f, reverse, x, s[1..], b);
      var r := [s[0]] + Insert(f, reverse, x, s[1..]);
      assert forall j :: 0 < j < |r| ==> r[j] == Insert(f, reverse, x, s[1..])[j - 1];
    }
  }

  /** A row that precedes the head of a sorted sequence can be put in front of it. */
  lemma InsertFront(f: Field, reverse: bool, x: Item, s: seq<Item>)
    requires Sorted(f, reverse, s) && s != [] && Precedes(f, reverse, x, s[0])
    ensures Sorted(f, reverse, [x] + s)
  {
    PrecedesAll(f, reverse, x, s);
    var r := [x] + s;
    forall i, j | 0 <= i < j < |r|
      ensures !Precedes(f, reverse, r[j], r[i])
    {
      if i == 0 {
        PrecedesAsymmetric(f, reverse, x, r[j]);
      } else {
        assert r[i] == s[i - 1] && r[j] == s[j - 1];
      }
    }
  }

  /** A row that nothing in a sorted sequence precedes can be put in front of it. */
  lemma ConsSorted(f: Field, reverse: bool, y: Item, s: seq<Item>)
    requires Sorted(f, reverse, s) && NoneBefore(f, reverse, s, y)
    ensures Sorted(f, reverse, [y] + s)
  {
    var r := [y] + s;
    forall i, j | 0 <= i < j < |r|
      ensures !Precedes(f, reverse, r[j], r[i])
    {
      assert r[j] == s[j - 1];
      if i > 0 {
        assert r[i] == s[i - 1];
      }
    }
  }

  lemma {:induction false} InsertSorted(f: Field, reverse: bool, x: Item, s: seq<Item>)
    requires Sorted(f, reverse, s)
    ensures Sorted(f, reverse, Insert(f, reverse, x, s))
    decreases |s|
  {
    if s == [] {
    } else if Precedes(f, reverse, x, s[0]) {
      InsertFront(f, reverse, x, s);
    } else {
      var tail := s[1..];
      assert Sorted(f, reverse, tail);
      InsertSorted(f, reverse, x, tail);
      assert NoneBefore(f, reverse, tail, s[0]);
      InsertNoneBefore(f, reverse, x, tail, s[0]);
      ConsSorted(f, reverse, s[0], Insert(f, reverse, x, tail));
    }
  }

  lemma {:induction false} WithKeyAppend(f: Field, a: seq<Item>, b: seq<Item>, k: SortKey)
    ensures WithKey(f, a + b, k) == WithKey(f, a, k) + WithKey(f, b, k)
    decreases |a|
  {
    if a == [] {
      assert a + b == b;
    } else {
      WithKeyCons(f, a + b, k);
      WithKeyCons(f, a, k);
      assert (a + b)[0] == a[0];
      assert (a + b)[1..] == a[1..] + b;
      WithKeyAppend(f, a[1..], b, k);
    }
  }

  /** One unfolding of `WithKey`. */
  lemma WithKeyCons(f: Field, s: seq<Item>, k: SortKey)
    requires s != []
    ensures WithKey(f, s, k) == (if Key(f, s[0]) == k then [s[0]] else []) + WithKey(f, s[1..], k)
  {
  }

  /** No row of `s` has a key that `x` precedes... none shares a key with `x`. */
  lemma {:induction false} WithKeyNone(f: Field, reverse: bool, x: Item, s: seq<Item>)
    requires forall j :: 0 <= j < |s| ==> Precedes(f, reverse, x, s[j])
    ensures WithKey(f, s, Key(f, x)) == []
    decreases |s|
  {
    if s != [] {
      PrecedesDistinctKeys(f, reverse, x, s[0]);
      WithKeyNone(f, reverse, x, s[1..]);
    }
  }

  /** The key class of a single row. */
  lemma WithKeySingleton(f: Field, x: Item, k: SortKey)
    ensures WithKey(f, [x], k) == if Key(f, x) == k then [x] else []
  {
    assert [x][1..] == [];
  }

  /** Inserting `x` into the sorted `s` adds `x` at the end of its key class. */
  lemma {:induction false} InsertWithKey(f: Field, reverse: bool, x: Item, s: seq<Item>, k: SortKey)
    requires Sorted(f, reverse, s)
    ensures WithKey(f, Insert(f, reverse, x, s), k) == WithKey(f, s, k) + WithKey(f, [x], k)
    decreases |s|, 1
  {
    WithKeySingleton(f, x, k);
    if s == [] {
      assert WithKey(f, s, k) == [];
    } else if Precedes(f, reverse, x, s[0]) {
      InsertWithKeyFront(f, reverse, x, s, k);
    } else {
      InsertWithKeyLater(f, reverse, x, s, k);
    }
  }

  lemma InsertWithKeyFront(f: Field, reverse: bool, x: Item, s: seq<Item>, k: SortKey)
    requires Sorted(f, reverse, s) && s != [] && Precedes(f, reverse, x, s[0])
    ensures WithKey(f, Insert(f, reverse, x, s), k) == WithKey(f, s, k) + WithKey(f, [x], k)
  {
    assert Insert(f, reverse, x, s) == [x] + s;
    WithKeySingleton(f, x, k);
    WithKeyAppend(f, [x], s, k);
    if Key(f, x) == k {
      PrecedesAll(f, reverse, x, s);
      WithKeyNone(f, reverse, x, s);
    }
  }

  lemma {:induction false} InsertWithKeyLater(f: Field, reverse: bool, x: Item, s: seq<Item>, k: SortKey)
    requires Sorted(f, reverse, s) && s != [] && !Precedes(f, reverse, x, s[0])
    ensures WithKey(f, Insert(f, reverse, x, s), k) == WithKey(f, s, k) + WithKey(f, [x], k)
    decreases |s|, 0
  {
    var head, tail := [s[0]], s[1..];
    var rest := Insert(f, reverse, x, tail);
    assert Sorted(f, reverse, tail);
    calc {
      WithKey(f, Insert(f, reverse, x, s), k);
      { assert Insert(f, reverse, x, s) == head + rest; }
      WithKey(f, head + rest, k);
      { WithKeyAppend(f, head, rest, k); }
      WithKey(f, head, k) + WithKey(f, rest, k);
      { InsertWithKey(f, reverse, x, tail, k); }
      WithKey(f, head, k) + (WithKey(f, tail, k) + WithKey(f, [x], k));
      (WithKey(f, head, k) + WithKey(f, tail, k)) + WithKey(f, [x], k);
      { WithKeyAppend(f, head, tail, k); assert s == head + tail; }
      WithKey(f, s, k) + WithKey(f, [x], k);
    }
  }

  /** Inserting the next row into a stable sort of the rows before it gives a
      stable sort of them all. */
  lemma InsertStep(f: Field, reverse: bool, init: seq<Item>, x: Item, sorted: seq<Item>)
    requires multiset(sorted) == multiset(init)
    requires Sorted(f, reverse, sorted) && SameKeyClasses(f, sorted, init)
    ensures var r := Insert(f, reverse, x, sorted);
      && multiset(r) == multiset(init + [x])
      && Sorted(f, reverse, r)
      && SameKeyClasses(f, r, init + [x])
  {
    InsertPermutes(f, reverse, x, sorted);
    InsertSorted(f, reverse, x, sorted);
    InsertKeyClasses(f, reverse, x, sorted, init);
  }

  lemma InsertKeyClasses(f: Field, reverse: bool, x: Item, sorted: seq<Item>, init: seq<Item>)
    requires Sorted(f, reverse, sorted) && SameKeyClasses(f, sorted, init)
    ensures SameKeyClasses(f, Insert(f, reverse, x, sorted), init + [x])
  {
    forall k
      ensures WithKey(f, Insert(f, reverse, x, sorted), k) == WithKey(f, init + [x], k)
    {
      InsertWithKey(f, reverse, x, sorted, k);
      WithKeyAppend(f, init, [x], k);
    }
  }

  // ----- sorting what is already sorted -----

  /** A row that precedes nothing in `s` is inserted at the end. */
  lemma {:induction false} InsertAtEnd(f: Field, reverse: bool, x: Item, s: seq<Item>)
    requires forall j :: 0 <= j < |s| ==> !Precedes(f, reverse, x, s[j])
    ensures Insert(f, reverse, x, s) == s + [x]
    decreases |s|
  {
    if s != [] {
      InsertAtEnd(f, reverse, x, s[1..]);
      assert s == [s[0]] + s[1..];
    }
  }

  /** The rows before the last of a sorted sequence are sorted, and the last
      precedes none of them. */
  lemma SortedParts(f: Field, reverse: bool, init: seq<Item>, x: Item)
    requires Sorted(f, reverse, init + [x])
    ensures Sorted(f, reverse, init)
    ensures forall j :: 0 <= j < |init| ==> !Precedes(f, reverse, x, init[j])
  {
    var s := init + [x];
    assert forall j :: 0 <= j < |init| ==> s[j] == init[j];
    assert s[|init|] == x;
  }

  /** Sorting rows that are already in order leaves them exactly as they are. */
  lemma {:induction false} SortOfSorted(f: Field, reverse: bool, s: seq<Item>)
    requires Sorted(f, reverse, s)
    ensures Sort(f, reverse, s) == s
    decreases |s|
  {
    if s != [] {
      var init, x := s[..|s| - 1], s[|s| - 1];
      assert s == init + [x];
      assert Sort(f, reverse, s) == Insert(f, reverse, x, Sort(f, reverse, init));
      SortedParts(f, reverse, init, x);
      SortOfSorted(f, reverse, init);
      InsertAtEnd(f, reverse, x, init);
    }
  }

  /** Sorting twice by the same criteria is sorting once. */
  lemma SortIdempotent(f: Field, reverse: bool, s: seq<Item>)
    ensures Sort(f, reverse, Sort(f, reverse, s)) == Sort(f, reverse, s)
  {
    SortOfSorted(f, reverse, Sort(f, reverse, s));
  }

  // ----- the rows of the navigator's sort test -----

  const RowZ := Item("Z", File, 1000, 1)
  const RowA := Item("A", File, 500, 3)
  const RowM := Item("M", File, 2000, 2)

  lemma RowNameKeys()
    ensures Key(Name, RowZ) == Text("z") && Key(Name, RowA) == Text("a") && Key(Name, RowM) == Text("m")
  {
    assert Lower("Z") == "z" && Lower("A") == "a" && Lower("M") == "m";
  }

  lemma SortByNameExample()
    ensures Sort(Name, false, [RowZ, RowA, RowM]) == [RowA, RowM, RowZ]
  {
    var z, a, m := RowZ, RowA, RowM;
    assert [z, a, m][..2] == [z, a];
    calc {
      Sort(Name, false, [z, a, m]);
      Insert(Name, false, m, Sort(Name, false, [z, a]));
      { SortByNameFirstTwo(); }
      Insert(Name, false, m, [a, z]);
      { InsertByNameLast(); }
      [a, m, z];
    }
  }

  lemma SortByNameFirstTwo()
    ensures Sort(Name, false, [RowZ, RowA]) == [RowA, RowZ]
  {
    RowNameKeys();
    assert [RowZ, RowA][..1] == [RowZ];
    assert Sort(Name, false, [RowZ, RowA]) == Insert(Name, false, RowA, [RowZ]);
  }

  lemma InsertByNameLast()
    ensures Insert(Name, false, RowM, [RowA, RowZ]) == [RowA, RowM, RowZ]
  {
    RowNameKeys();
    assert Insert(Name, false, RowM, [RowA, RowZ]) == [RowA] + Insert(Name, false, RowM, [RowZ]);
  }

  lemma SortBySizeExample()
    ensures Sort(Size, false, [RowA, RowM, RowZ]) == [RowA, RowZ, RowM]
  {
    var z, a, m := RowZ, RowA, RowM;
    assert [a, m, z][..2] == [a, m] && [a, m][..1] == [a];
    assert Sort(Size, false, [a, m]) == Insert(Size, false, m, [a]) == [a, m];
    assert Insert(Size, false, z, [a, m]) == [a] + Insert(Size, false, z, [m]) == [a, z, m];
  }

  lemma SortByDateExample()
    ensures Sort(LastModified, false, [RowA, RowZ, RowM]) == [RowZ, RowM, RowA]
  {
    var z, a, m := RowZ, RowA, RowM;
    assert [a, z, m][..2] == [a, z] && [a, z][..1] == [a];
    assert Sort(LastModified, false, [a, z]) == Insert(LastModified, false, z, [a]) == [z, a];
    assert Insert(LastModified, false, m, [z, a]) == [z] + Insert(LastModified, false, m, [a]) == [z, m, a];
  }

  lemma SortByDateReversedExample()
    ensures Sort(LastModified, true, [RowZ, RowM, RowA]) == [RowA, RowM, RowZ]
  {
    var z, a, m := RowZ, RowA, RowM;
    assert [z, m, a][..2] == [z, m] && [z, m][..1] == [z];
    assert Sort(LastModified, true, [z, m]) == Insert(LastModified, true, m, [z]) == [m, z];
    assert Insert(LastModified, true, a, [m, z]) == [a, m, z];
  }
}

=== FILE: strings.dfy ===
/** The handful of Python `str` operations the navigator and the client use on
    keys and paths, all specialised to the separator '/'. */
module Strings {

  const Slash: char := '/'

  /** `"/".join(parts)` */
  function Join(parts: seq<string>): string
  {
    if |parts| == 0 then ""
    else if |parts| == 1 then parts[0]
    else parts[0] + [Slash] + Join(parts[1..])
  }

  /** Joining a head onto non-empty pieces puts one separator after it. */
  lemma JoinCons(head: string, rest: seq<string>)
    requires rest != []
    ensures Join([head] + rest) == head + [Slash] + Join(rest)
  {
    assert ([head] + rest)[1..] == rest;
  }

  /** Position of the first `c` in `s`. */
  function IndexOf(s: string, c: char): (i: nat)
    requires c in s
    ensures i < |s| && s[i] == c
    ensures c !in s[..i]
  {
    if s[0] == c then 0 else 1 + IndexOf(s[1..], c)
  }

  /** `s.split("/")`: the pieces between separators, in order, always at least one. */
  function Split(s: string): (parts: seq<string>)
    ensures |parts| >= 1
    decreases |s|
  {
    if Slash !in s then [s]
    else
      var i := IndexOf(s, Slash);
      [s[..i]] + Split(s[i + 1..])
  }

  /** `s.endswith("/")` */
  predicate EndsWithSlash(s: string) {
    |s| > 0 && s[|s| - 1] == Slash
  }

  /** `s.startswith("/")` */
  predicate StartsWithSlash(s: string) {
    |s| > 0 && s[0] == Slash
  }

  /** `s.rstrip("/")`: the longest prefix of `s` that does not end in '/'. */
  function RStrip(s: string): (r: string)
    ensures r <= s
    ensures !EndsWithSlash(r)
    ensures forall k :: |r| <= k < |s| ==> s[k] == Slash
  {
    if EndsWithSlash(s) then RStrip(s[..|s| - 1]) else s
  }

  /** `s.lstrip("/")`: the longest suffix of `s` that does not start with '/'. */
  function LStrip(s: string): (r: string)
    ensures |r| <= |s| && r == s[|s| - |r|..]
    ensures !StartsWithSlash(r)
    ensures forall k :: 0 <= k < |s| - |r| ==> s[k] == Slash
  {
    if StartsWithSlash(s) then LStrip(s[1..]) else s
  }

  /** `r` sits in `s` at `i`, and every character of `s` around it is '/'. */
  predicate SlashesAround(s: string, r: string, i: int) {
    && 0 <= i <= |s| - |r|
    && r == s[i..i + |r|]
    && (forall k :: 0 <= k < i ==> s[k] == Slash)
    && (forall k :: i + |r| <= k < |s| ==> s[k] == Slash)
  }

  /** `s.strip("/")`: the middle of `s` left once the separators at both ends are
      removed; nothing else is touched. */
  function Strip(s: string): (r: string)
    ensures !StartsWithSlash(r) && !EndsWithSlash(r)
    ensures !StartsWithSlash(s) && !EndsWithSlash(s) ==> r == s
  {
    var t := RStrip(s);
    var r := LStrip(t);
    assert r != [] ==> r[|r| - 1] == t[|t| - 1];
    r
  }

  /** `Strip` removes separators at the two ends and nothing else: its result is
      the middle of `s`, and all that surrounds it is '/'. */
  lemma StripIsMiddle(s: string)
    ensures exists i :: SlashesAround(s, Strip(s), i)
  {
    var t := RStrip(s);
    var r := LStrip(t);
    assert Strip(s) == r;
    StripAt(s, t, r);
    assert SlashesAround(s, Strip(s), |t| - |r|);
  }

  /** Where `Strip` takes its result from. */
  lemma StripAt(s: string, t: string, r: string)
    requires t <= s && forall k :: |t| <= k < |s| ==> s[k] == Slash
    requires |r| <= |t| && r == t[|t| - |r|..] && forall k :: 0 <= k < |t| - |r| ==> t[k] == Slash
    ensures SlashesAround(s, r, |t| - |r|)
  {
    var i := |t| - |r|;
    assert t <= s;
    assert r == t[i..];
    assert r == s[i..|t|];
    forall k | 0 <= k < i
      ensures s[k] == Slash
    {
      assert s[k] == t[k];
    }
    forall k | |t| <= k < |s|
      ensures s[k] == Slash
    {
    }
  }

  /** `s[n:]` for `n >= 0`: empty once `n` runs past the end. */
  function Drop(s: string, n: nat): string {
    if n <= |s| then s[n..] else ""
  }

  /** `s.split("/")[-1]`: what follows the last separator, read from the end
      (see `LastSegmentIsLastPiece`). */
  function LastSegment(s: string): string
    decreases |s|
  {
    if s == [] || s[|s| - 1] == Slash then [] else LastSegment(s[..|s| - 1]) + [s[|s| - 1]]
  }

  /** `s.rstrip("/").split("/")[-1]`: the name a common prefix gives its directory row. */
  function DirName(prefix: string): string {
    LastSegment(RStrip(prefix))
  }

  /** Python's `str.lower()`, restricted to the ASCII letters. */
  function LowerChar(c: char): char {
    if 'A' <= c <= 'Z' then (c as int + 32) as char else c
  }

  function Lower(s: string): (r: string)
    ensures |r| == |s|
  {
    seq(|s|, i requires 0 <= i < |s| => LowerChar(s[i]))
  }

  /** `Lower` leaves no capital letter: each capital becomes the small letter at
      the same place in the alphabet, and every other character is kept. */
  lemma LowerCases(s: string)
    ensures var r := Lower(s);
      && (forall i :: 0 <= i < |r| ==> !('A' <= r[i] <= 'Z'))
      && (forall i :: 0 <= i < |s| && 'A' <= s[i] <= 'Z' ==>
           'a' <= r[i] <= 'z' && r[i] as int - 'a' as int == s[i] as int - 'A' as int)
      && (forall i :: 0 <= i < |s| && !('A' <= s[i] <= 'Z') ==> r[i] == s[i])
  {
  }

  /** Python's `<` on strings: code-point lexicographic order, a proper prefix first. */
  predicate TextLess(a: string, b: string) {
    if |a| == 0 then |b| > 0
    else if |b| == 0 then false
    else a[0] < b[0] || (a[0] == b[0] && TextLess(a[1..], b[1..]))
  }

  // ----- Join / Split -----

  /** Joining the pieces of a split gives back the string, and no piece holds a separator. */
  lemma {:induction false} JoinSplit(s: string)
    ensures forall i :: 0 <= i < |Split(s)| ==> Slash !in Split(s)[i]
    ensures Join(Split(s)) == s
    decreases |s|
  {
    if Slash in s {
      var i := IndexOf(s, Slash);
      var tail := s[i + 1..];
      var rest := Split(tail);
      JoinSplit(tail);
      assert Split(s) == [s[..i]] + rest;
      assert |rest| >= 1;
      assert ([s[..i]] + rest)[1..] == rest;
      assert Join([s[..i]] + rest) == s[..i] + [Slash] + Join(rest);
      assert s == s[..i] + [Slash] + tail;
      assert Slash !in s[..i];
    } else {
      assert Split(s) == [s];
    }
  }

  lemma {:induction false} LastSegmentIsLastPiece(s: string)
    ensures LastSegment(s) == Split(s)[|Split(s)| - 1]
    decreases |s|, 1
  {
    if Slash in s {
      LastPieceStep(s);
    } else {
      assert Split(s) == [s];
      LastSegmentNoSlash(s);
    }
  }

  lemma {:induction false} LastPieceStep(s: string)
    requires Slash in s
    ensures LastSegment(s) == Split(s)[|Split(s)| - 1]
    decreases |s|, 0
  {
    var i := IndexOf(s, Slash);
    var head, rest := s[..i], s[i + 1..];
    var parts := Split(rest);
    calc {
      LastSegment(s);
      { SliceAround(s, i); LastSegmentAfterSlash(head, rest); }
      LastSegment(rest);
      { LastSegmentIsLastPiece(rest); }
      parts[|parts| - 1];
      { SplitCons(s); LastOfCons(head, parts); }
      Split(s)[|Split(s)| - 1];
    }
  }

  /** One unfolding of `Split` at the first separator. */
  lemma SplitCons(s: string)
    requires Slash in s
    ensures var i := IndexOf(s, Slash); Split(s) == [s[..i]] + Split(s[i + 1..])
  {
  }

  /** `s` is what precedes position `i`, the separator there, and what follows. */
  lemma SliceAround(s: string, i: nat)
    requires i < |s| && s[i] == Slash
    ensures s == s[..i] + [Slash] + s[i + 1..]
  {
  }

  lemma LastOfCons(x: string, tail: seq<string>)
    requires |tail| >= 1
    ensures var l := [x] + tail; l[|l| - 1] == tail[|tail| - 1]
  {
  }

  lemma {:induction false} JoinAppend(parts: seq<string>, x: string)
    requires |parts| >= 1
    ensures Join(parts + [x]) == Join(parts) + [Slash] + x
    decreases |parts|
  {
    var ps := parts + [x];
    assert ps[0] == parts[0];
    if |parts| == 1 {
      assert ps[1..] == [x];
      assert Join(ps) == parts[0] + [Slash] + Join([x]);
    } else {
      assert ps[1..] == parts[1..] + [x];
      JoinAppend(parts[1..], x);
      assert Join(ps) == parts[0] + [Slash] + Join(parts[1..] + [x]);
    }
  }

  /** Splitting undoes joining, provided no piece contains the separator. */
  lemma {:induction false} SplitJoin(parts: seq<string>)
    requires |parts| >= 1
    requires forall i :: 0 <= i < |parts| ==> Slash !in parts[i]
    ensures Split(Join(parts)) == parts
    decreases |parts|
  {
    if |parts| > 1 {
      var s := Join(parts);
      var p0 := parts[0];
      assert s == p0 + [Slash] + Join(parts[1..]);
      assert s[|p0|] == Slash;
      var i := IndexOf(s, Slash);
      assert i <= |p0|;
      assert i >= |p0| by {
        assert forall k :: 0 <= k < |p0| ==> s[k] == p0[k] != Slash;
      }
      assert s[..i] == p0;
      assert s[i + 1..] == Join(parts[1..]);
      SplitJoin(parts[1..]);
      assert Split(s) == [s[..i]] + Split(s[i + 1..]);
    }
  }

  lemma JoinNoSlashEnds(parts: seq<string>)
    requires |parts| >= 1
    requires forall i :: 0 <= i < |parts| ==> parts[i] != "" && Slash !in parts[i]
    ensures !StartsWithSlash(Join(parts)) && !EndsWithSlash(Join(parts))
    decreases |parts|
  {
    if |parts| > 1 {
      JoinNoSlashEnds(parts[1..]);
      var s := Join(parts);
      assert s == parts[0] + [Slash] + Join(parts[1..]);
      assert s[0] == parts[0][0];
    }
  }

  // ----- Last segment / directory names -----

  /** The last piece is a slash-free tail of `s` ... */
  lemma LastSegmentIsTail(s: string)
    ensures var t := LastSegment(s);
      && |t| <= |s| && t == s[|s| - |t|..]
      && Slash !in t
  {
    LastSegmentIsSuffix(s);
    LastSegmentSlashFree(s);
  }

  lemma {:induction false} LastSegmentIsSuffix(s: string)
    ensures |LastSegment(s)| <= |s|
    ensures LastSegment(s) == s[|s| - |LastSegment(s)|..]
    decreases |s|
  {
    if s != [] && s[|s| - 1] != Slash {
      var init := s[..|s| - 1];
      LastSegmentIsSuffix(init);
      var t := LastSegment(init);
      assert s[|s| - |t| - 1..] == init[|init| - |t|..] + [s[|s| - 1]];
    }
  }

  lemma {:induction false} LastSegmentSlashFree(s: string)
    ensures Slash !in LastSegment(s)
    decreases |s|
  {
    if s != [] && s[|s| - 1] != Slash {
      LastSegmentSlashFree(s[..|s| - 1]);
    }
  }

  /** A slash-free string is its own last segment. */
  lemma {:induction false} LastSegmentNoSlash(s: string)
    requires Slash !in s
    ensures LastSegment(s) == s
    decreases |s|
  {
    if s != [] {
      var init := s[..|s| - 1];
      assert s[|s| - 1] in s;
      assert forall c :: c in init ==> c in s;
      LastSegmentNoSlash(init);
      assert s == init + [s[|s| - 1]];
    }
  }

  /** Everything up to a separator is irrelevant to the last segment. */
  lemma {:induction false} LastSegmentAfterSlash(a: string, b: string)
    ensures LastSegment(a + [Slash] + b) == LastSegment(b)
    decreases |b|
  {
    var s := a + [Slash] + b;
    if b == [] {
      assert s[|s| - 1] == Slash;
    } else {
      assert s[|s| - 1] == b[|b| - 1];
      assert s[..|s| - 1] == a + [Slash] + b[..|b| - 1];
      LastSegmentAfterSlash(a, b[..|b| - 1]);
    }
  }

  /** ... and it starts right after a separator, or at the start of `s`. */
  lemma {:induction false} LastSegmentFollowsSlash(s: string)
    ensures var t := LastSegment(s);
      |t| <= |s| && (|t| == |s| || s[|s| - |t| - 1] == Slash)
    decreases |s|
  {
    if s != [] && s[|s| - 1] != Slash {
      var init := s[..|s| - 1];
      var t := LastSegment(init);
      assert LastSegment(s) == t + [s[|s| - 1]];
      LastSegmentFollowsSlash(init);
      assert |t| < |init| ==> s[|s| - |t| - 2] == init[|init| - |t| - 1];
    }
  }

  /** The last segment of `p + d` is `d` when `p` is empty or ends in '/' and `d` is slash-free. */
  lemma LastSegmentOfChild(p: string, d: string)
    requires p == "" || EndsWithSlash(p)
    requires Slash !in d
    ensures LastSegment(p + d) == d
  {
    if p == "" {
      assert p + d == d;
      LastSegmentNoSlash(d);
    } else {
      var a := p[..|p| - 1];
      assert p + d == a + [Slash] + d;
      LastSegmentAfterSlash(a, d);
      LastSegmentNoSlash(d);
    }
  }

  /** A common prefix yields no directory name exactly when it consists of separators only. */
  lemma DirNameEmptyIff(prefix: string)
    ensures DirName(prefix) == "" <==> forall k :: 0 <= k < |prefix| ==> prefix[k] == Slash
  {
    var t := RStrip(prefix);
    LastSegmentFollowsSlash(t);
    if t != "" {
      assert prefix[|t| - 1] == t[|t| - 1] != Slash;
      assert LastSegment(t) != "";
    }
  }

  /** The directory row for the common prefix `p + d + "/"` is named `d`. */
  lemma DirNameOfChild(p: string, d: string)
    requires p == "" || EndsWithSlash(p)
    requires d != "" && Slash !in d
    ensures DirName(p + d + [Slash]) == d
  {
    var s := p + d + [Slash];
    assert s[..|s| - 1] == p + d;
    assert RStrip(s) == RStrip(p + d) == p + d;
    LastSegmentOfChild(p, d);
  }

  /** A directory name never contains the separator. */
  lemma DirNameSlashFree(prefix: string)
    ensures Slash !in DirName(prefix)
  {
    LastSegmentIsTail(RStrip(prefix));
  }

  // ----- Order on strings -----

  lemma {:induction false} TextLessIrreflexive(a: string)
    ensures !TextLess(a, a)
    decreases |a|
  {
    if |a| > 0 {
      TextLessIrreflexive(a[1..]);
    }
  }

  lemma {:induction false} TextLessTransitive(a: string, b: string, c: string)
    requires TextLess(a, b) && TextLess(b, c)
    ensures TextLess(a, c)
    decreases |a|
  {
    if |a| > 0 && a[0] == b[0] == c[0] {
      TextLessTransitive(a[1..], b[1..], c[1..]);
    }
  }

  lemma {:induction false} TextLessTotal(a: string, b: string)
    requires a != b
    ensures TextLess(a, b) || TextLess(b, a)
    decreases |a|
  {
    if |a| > 0 && |b| > 0 && a[0] == b[0] {
      assert a == [a[0]] + a[1..] && b == [b[0]] + b[1..];
      TextLessTotal(a[1..], b[1..]);
    }
  }
}

=== FILE: wrappers.dfy ===
/** Optional values, for the places where the source reads a field that may be absent. */
module Wrappers {

  datatype Option<+T> = None | Some(value: T) {

    /** The wrapped value, or `default` when there is none (Python's `d.get(k, default)`). */
    function GetOr(default: T): T {
      match this
      case Some(v) => v
      case None => default
    }
  }
}
